=== FILE: README.md ===
# Ticket holds and checkout, in Dafny

This project models the ticket-hold and checkout state machine of the
ECE1724 event-ticketing application (Next.js route handlers over Prisma).
It also models the pure validators around that state machine.

The database is one immutable value, `Db.State`. It holds tiers, ticket
reservations, discount codes, discount reservations, orders, waitlist
entries and registrations. Each table is a sequence, and the row with id k
sits at position k - 1. Every handler is a pure function from
`(state, now, caller, input)` to `(response, state')`. Time is an integer
count of milliseconds, and the session is an optional user id.

The modules follow the source files:

- `Queue` (src/lib/queue.ts): creating a hold and sweeping expired holds.
- `Tickets` (src/lib/tickets.ts): the live availability, `remainingTickets`.
- `Orders` (src/app/api/orders/route.ts): checkout finalisation.
- `DiscountValidate`, `DiscountRelease`, `DiscountCheck` and `DiscountLink`: the four routes under src/app/api/discount.
- `Waitlist`: the waitlist join and check routes.
- `Payment`: the card-field validator.
- `Middleware`: the path and role access decision.
- `CreateEvent` and `Registrations` (src/lib/actions.ts): event creation and registration.
- `CheckIn` (src/lib/socket.ts): the check-in handler logic.
- `TicketSection`, `PurchasedEvents`, `EventForm` and `InviteStaff`: the client components' state changes and list operations.
- `Consistency`: how the three availability formulas relate once holds, checkouts and sweeps interleave.
- `Flows`: what one route writes and another route reads back.

Shared helpers:

- `Text` models JavaScript's `trim`, `split`, `toLowerCase`, `String(n)` and `parseInt`.
- `Seqs` holds the list helpers.
- `Wrappers` holds `Option`.

The model follows the code as written. It does not repair the code. Where
the code disagrees with itself, lemmas in `Consistency`, `Queue`, `Tickets`
and `CreateEvent` state the disagreement as a property of the model.

Four behaviours of the code differ from what a ticketing system is usually
expected to do. The model follows the code in each of them:

- A discount code's validity window is closed at both ends, not the usual
  half-open [start, end). `now > endDate` is what rejects, so `now == endDate`
  passes (`DiscountValidate.InWindow`).
- Holds that are past their expiry but not yet swept still count against
  availability. `createReservation` counts every hold, whatever its status or
  expiry. `remainingTickets` and the waitlist join count PENDING holds even
  when they are overdue.
- Waiting entries are never promoted into holds. Nothing does this: not the
  sweep, not a cancellation, not a refund. Waitlist entries are only created
  and queried.
- There is no separate sold counter or fixed capacity. Checkout lowers
  `tier.quantity` itself (`Consistency.CheckoutCountsHoldTwice`).

## Model

| member | source | states |
|---|---|---|
| Queue.CreateReservation | src/lib/queue.ts:43-102 | A missing tier gives null and no change. A hold is created exactly when the request fits in stock minus the holds of every status. On success exactly one PENDING hold is added, for that user, tier and quantity and expiring 900 000 ms after `now`, and nothing else changes. A refusal changes nothing. |
| Queue.CreateExactlyAvailable | src/lib/queue.ts:68-83 | Asking for exactly the available amount succeeds and leaves nothing available. |
| Queue.CreateLowersAvailability | src/lib/queue.ts:68-83 | A successful hold of q lowers the availability createReservation computes by exactly q, negative q included. |
| Queue.CreateKeepsNoOversell | src/lib/queue.ts:68-94 | If every tier's holds of any status sum to no more than its stock, that still holds after any createReservation call. |
| Queue.Sweep | src/lib/queue.ts:110-125 | A hold's status changes exactly when it was PENDING with expiry strictly before `now`. Such a hold becomes EXPIRED, and no other field or table changes. |
| Queue.ProcessReservationExpiry | src/lib/queue.ts:104-129 | The loop that finds overdue holds and updates them one by one ends in the state of the one-step sweep. It reports how many holds were overdue. |
| Queue.SweepIdempotent | src/lib/queue.ts:110-125 | Sweeping twice at the same instant is the same as sweeping once. |
| Queue.SweepKeepsHoldAvailability | src/lib/queue.ts:68-72 | The sweep leaves createReservation's availability unchanged, because that sum ignores status. |
| Queue.SweepKeepsNoOversell | src/lib/queue.ts:104-129 | The sweep keeps the no-oversell invariant. |
| Queue.RunKeepsNoOversell | src/lib/queue.ts:43-129 | No oversell under sequential calls: after any interleaving of hold requests and sweeps from a state without oversell, no tier's holds sum past its stock. |
| Queue.NegativeQuantityOverbooks | src/lib/queue.ts:80-94 | Quantity is never checked for positivity. Whenever q > 0 tickets are available, holds of q, -q and q all succeed, the two positive holds add up to 2q, and nothing is left available. |
| Tickets.RemainingTickets | src/lib/tickets.ts:3-22 | A missing tier gives 0. Otherwise the result plus the CONFIRMED orders' quantities plus the PENDING holds' quantities equals the tier's stock. |
| Tickets.LeavingPendingFreesQuantity | src/lib/tickets.ts:17-21 | Moving a PENDING hold to any other status raises its tier's count by exactly the hold's quantity, and leaves every other tier's count alone. |
| Tickets.OnlyPendingAndConfirmedCount | src/lib/tickets.ts:13-19 | A new hold that is not PENDING leaves the count unchanged, and so does a new order that is not CONFIRMED. |
| Tickets.RemainingCanBeNegative | src/lib/tickets.ts:21 | The result is not clamped: a tier of 1 with a pending hold of 3 reports -2. |
| Orders.Checkout | src/app/api/orders/route.ts:7-146 | Without a session the response is 401 with no change. The hold must be the caller's PENDING hold for the requested tier and quantity, or the response is "Invalid reservation". An expiry strictly before `now` is "Reservation expired". A named code must exist, or the response is "Invalid discount code", and must pass the usage and date checks, or the response names the failed check; each of these is an iff with the earlier checks. A request passing every check is answered 200 exactly when its tier exists; a missing tier gives 500 (other database failures are listed under Left out). Only success changes state: one CONFIRMED order is added, the tier's stock drops by exactly the quantity (also the reported remainder), the hold becomes COMPLETED, and the code's use count rises by one exactly when a code was given. |
| Orders.Finalize | src/app/api/orders/route.ts:92-132 | The writes of a passed checkout: one CONFIRMED order appended, only the requested tier's stock lowered by the quantity, only the hold completed, and only the named code's use count raised by one. |
| Orders.CheckoutNotRepeatable | src/app/api/orders/route.ts:26-119 | After a successful checkout, the same request at any later time is "Invalid reservation" and changes nothing. |
| Orders.AcceptedAtExpiryInstant | src/app/api/orders/route.ts:44-49 | A matching hold is still accepted at exactly its expiry instant. |
| DiscountValidate.CodeProblemAt | src/app/api/discount/validate/route.ts:43-64 | A code has no problem exactly when it has uses left (a null maxUses is never used up) and `now` lies in its inclusive window. Otherwise the reported problem is the first failing check: usage, then start date, then end date. |
| DiscountValidate.FindCode | src/app/api/discount/validate/route.ts:21-26 | The result is the first code whose text and event both match. None means that no code matches. |
| DiscountValidate.ValidateCode | src/app/api/discount/validate/route.ts:4-77 | A missing code or event id gives 400, and no match for the (code, event) pair gives 404. A rejection reports the first failing check. A success returns the type and value of the first code matching the pair, the row `findFirst` returns, and that code is usable now. |
| DiscountValidate.UsageCheckedBeforeDates | src/app/api/discount/validate/route.ts:44-64 | A used-up code is reported as used up even outside its date window. |
| DiscountRelease.ReleaseDiscountReservation | src/app/api/discount/release/route.ts:8-83 | The result is true exactly when the hold exists and is PENDING, and then only that hold becomes CANCELLED. A false result changes nothing. Use counts are never touched. |
| DiscountRelease.ReleaseIdempotent | src/app/api/discount/release/route.ts:24-27 | A second release of the same hold returns false and changes nothing. |
| DiscountRelease.ReleasePost | src/app/api/discount/release/route.ts:85-149 | The responses are 401 without a session, 400 without an id, 404 for a missing hold and 403 for another user's hold, each with no change. Otherwise the response is always 200, and it reports CANCELLED exactly when the hold was PENDING. |
| DiscountCheck.CheckHold | src/app/api/discount/check/route.ts:11-90 | The responses are 401, 400 for a missing id and 404 for an unknown code. The response is 400 exactly when the caller has no PENDING hold on that code expiring strictly after `now`. A success returns such a hold with its expiry, the code's type and value, and the whole minutes left rounded down, which are never negative. The route only reads. |
| DiscountLink.LinkHolds | src/app/api/discount/reserve/route.ts:10-100 | The responses are 401, then 400 for a missing discount-hold id, then 400 for a missing ticket-hold id, then 404 unless each hold is the caller's. Past those checks the answer is 200 exactly when the hold's code row exists, and 500 otherwise. A success changes only the discount hold's link, setting it to the ticket hold, and echoes the code's text, type and value. |
| DiscountLink.RelinkOverwrites | src/app/api/discount/reserve/route.ts:76-80 | There is no already-linked check: linking again to another of the caller's ticket holds succeeds and overwrites the link. |
| Waitlist.JoinWaitlist | src/app/api/waitlist/join/route.ts:6-36 | Without a session the response is 401, and a missing tier is a server error. The response is 409 with no entry exactly when stock minus PENDING holds covers the request. Otherwise exactly one WAITING entry is added for the caller, the tier, the tier's event and the quantity. |
| Waitlist.RepeatedJoinAddsAgain | src/app/api/waitlist/join/route.ts:27-34 | There is no duplicate check: an identical second join adds a second, equal entry. |
| Waitlist.WaitlistCheck | src/app/api/waitlist/check/route.ts:6-23 | The result is false without a session, and false when the tier parameter is missing, unparsable or 0. Otherwise it is true exactly when the caller has a WAITING or NOTIFIED entry for that tier. |
| Waitlist.HexParameterReadsAsZero | src/app/api/waitlist/check/route.ts:11-12 | The parameter is read in base 10, so "0x5" reads as 0 and the answer is false. |
| Payment.PaymentErrors | src/app/api/payment/validate/route.ts:26-58 | Each field is a key of the error map exactly when its own check fails. The checks are: a non-blank name, 16 digits once white space is removed, MM/YY with MM 01-12 and not expired, and a 3- or 4-digit CVV. A failing expiry carries the format message or the expired message, as appropriate. |
| Payment.ValidatePayment | src/app/api/payment/validate/route.ts:12-73 | The response is 401 exactly without a session. A 400 response carries the non-empty error map. Success means that all four checks pass. |
| Payment.SplitWellFormed | src/app/api/payment/validate/route.ts:43 | A well-formed expiry splits at '/' into exactly its month and year texts. |
| Payment.FieldsOfWellFormed | src/app/api/payment/validate/route.ts:43 | The first split field of a well-formed expiry is its month text and the second its year text. |
| Payment.ParseTwoDigits | src/app/api/payment/validate/route.ts:47-48 | `parseInt` of two decimal digits is their two-digit value. |
| Payment.ExpiryMonthOfWellFormed | src/app/api/payment/validate/route.ts:43-47 | For a well-formed expiry, the parsed month is the value of its first two digits. |
| Payment.ExpiryYearOfWellFormed | src/app/api/payment/validate/route.ts:43-48 | For a well-formed expiry, the parsed year is the value of its last two digits. |
| Payment.ExpiryTextRoundTrip | src/app/api/payment/validate/route.ts:40-48 | Every month 1-12 and two-digit year, written as MM/YY, passes the format check and parses back to the same month and year. |
| Payment.ExpiryTextCharacters | src/app/api/payment/validate/route.ts:40-41 | The written MM/YY text matches the format, and its digits spell the month and the year. |
| Payment.MonthDigitsFormat | src/app/api/payment/validate/route.ts:40 | The two digits of any month 1-12 match `0[1-9]\|1[0-2]`. |
| Payment.CardExpiredIff | src/app/api/payment/validate/route.ts:42-53 | MM/YY is expired exactly when YY is before the current year mod 100, or equals it with MM before the current month. So the current month is accepted. |
| Middleware.Decide | middleware.ts:15-70 | The decision is sign-in exactly for a protected prefix without a user, and this rule comes before the role rules. It is unauthorized exactly when that rule does not fire and one role rule refuses. It passes in every other case, and always outside the six prefixes. |
| Middleware.SignInBeforeRoles | middleware.ts:23-43 | Without a user, every /dashboard path is sent to sign in rather than refused. |
| Middleware.StaffingIsStaffOnly | middleware.ts:54-59 | Prefixes are plain string prefixes: "/staffing" is refused to anyone whose role is not staff. |
| Middleware.OwnUserPage | middleware.ts:62-67 | /user/<id> is allowed to the user with that id, whatever the role, and refused to every other user. |
| CreateEvent.Get | src/lib/actions.ts:19-23 | The result is null exactly when no entry has that name. Otherwise it is the value of the first entry with that name. |
| CreateEvent.GetAll | src/lib/actions.ts:24-27 | The result holds exactly the values filed under that name. |
| CreateEvent.GetAllAppend | src/lib/actions.ts:24-27 | Reading a form split in two reads the first part's values, then the second's, so order and repetitions are kept. |
| CreateEvent.GetAllOne | src/lib/actions.ts:24-27 | A single entry is read exactly when its name matches. |
| CreateEvent.Keys | src/lib/actions.ts:31 | There is one key per entry, in order, duplicates kept. |
| CreateEvent.LazyClose | src/lib/actions.ts:39 | The lazy `.*?` stops at the first "].code" and crosses no line terminator. |
| CreateEvent.MatchPos | src/lib/actions.ts:38 | The leftmost position where the pattern matches, and None exactly when it matches nowhere. |
| CreateEvent.ExtractId | src/lib/actions.ts:31-41 | The result is the id captured at the leftmost position where the pattern matches. None means the pattern matches nowhere. |
| CreateEvent.KeyIdRoundTrip | src/lib/actions.ts:31-41 | The key "discountCodes[<id>].code" yields back <id>, for any id without "]" or line terminators. |
| CreateEvent.LazyCloseFinds | src/lib/actions.ts:39 | The scan reaches the first "].code" whenever nothing before it stops the scan. |
| CreateEvent.ExtractIdOfKey | src/lib/actions.ts:38-40 | A text laid out as "discountCodes[" + id + "].code" gives back id. |
| CreateEvent.CodeRowFor | src/lib/actions.ts:43-74 | A row is kept exactly when its code and type are non-empty and its value parses as a number. A kept row carries the form's code and type and the parsed value, and starts at 0 uses. maxUses is `parseInt` of its field, and start and end are `new Date` of theirs, when the field is non-empty. Each is null when its field is empty. |
| CreateEvent.CodeDrafts | src/lib/actions.ts:30-75 | Every kept row comes from a form key that matches the pattern. Every key whose row passes the checks has its row kept. There are never more rows than keys. |
| CreateEvent.CodeDraftsAppend | src/lib/actions.ts:36-75 | The rows follow the key order: the rows for two runs of keys are the first run's rows, then the second's. |
| CreateEvent.CodeDraftsOne | src/lib/actions.ts:36-75 | A single key yields its own row if it is kept, and nothing otherwise. |
| CreateEvent.ParsedAll | src/lib/actions.ts:24-27 | Each price or quantity is its text read by `parseInt`, in order. |
| CreateEvent.FirstProblem | src/lib/actions.ts:15-118 | Each error is thrown exactly when every earlier check passes and its own fails. The checks run in order: user, name, type, location, start, end, start before end, tier lengths, unique prices. Nothing is thrown exactly when all of them pass. |
| CreateEvent.Zip | src/lib/actions.ts:110-113 | Tier i pairs price i with quantity i. |
| CreateEvent.CreateEventFrom | src/lib/actions.ts:9-138 | The call fails exactly when some check fails, and with the first failing check's error. On success the event carries the caller as owner and the form's name, type and location. Its start is strictly before its end, or one of them is an Invalid Date. It gets one tier per price, paired with its quantity, with prices pairwise distinct, and the kept discount rows. |
| CreateEvent.EqualTimesRefused | src/lib/actions.ts:102-104 | The start must be strictly before the end: equal times are refused. |
| CreateEvent.InvalidDatePassesOrderCheck | src/lib/actions.ts:102-104 | An unparsable start date never triggers the ordering error, because comparisons with an Invalid Date are false. |
| CreateEvent.TwoUnparsablePricesClash | src/lib/actions.ts:115-118 | Two prices that both fail to parse (NaN) count as the same price. |
| Registrations.TokenOf | src/lib/actions.ts:155 | The token is a non-empty string of decimal digits. |
| Registrations.CreateRegistration | src/lib/actions.ts:140-178 | An unknown order throws, with no change. An existing token means no change. Otherwise exactly one registration is added, unchecked-in, for the order's user and event. Afterwards the order's token is present. |
| Registrations.CreateRegistrationIdempotent | src/lib/actions.ts:153-160 | A second call, at any time, changes nothing. |
| Registrations.CreateKeepsUniqueTokens | src/lib/actions.ts:153-177 | Registering keeps the tokens unique. |
| Registrations.DistinctOrdersBothRegister | src/lib/actions.ts:155-165 | Two different orders get different tokens, so registering one never blocks the other. |
| CheckIn.EventRegistrations | src/lib/socket.ts:60-65 | The result holds exactly the event's registrations, in table order. |
| CheckIn.MonitorEvent | src/lib/socket.ts:24-34 | monitor-event sends exactly the registrations of that event, in table order. |
| CheckIn.FindToken | src/lib/socket.ts:40-42 | The result finds a registration with the token. None means there is none. |
| CheckIn.CheckInToken | src/lib/socket.ts:36-75 | An unknown token, or a registration already checked in, is an error with no change. Otherwise only that registration becomes checked in, at `now`. The broadcast holds exactly the event's registrations after the update. |
| CheckIn.CheckInAtMostOnce | src/lib/socket.ts:48-50 | A second check-in with the same token fails and changes nothing, so the first check-in time stays. |
| CheckIn.CheckInMonotone | src/lib/socket.ts:52-58 | A check-in never un-checks a registration. |
| TicketSection.ChangeQuantity | src/components/tickets/TicketSection.tsx:30-35 | The quantity changes only to a parsed value v with a ticket selected and 1 ≤ v ≤ the ticket's quantity, and every such value is taken. Nothing else changes. |
| TicketSection.SelectTicket | src/components/tickets/TicketSection.tsx:161-164 | Selecting a ticket sets it and resets the quantity to 1. |
| TicketSection.QuantityStaysInRange | src/components/tickets/TicketSection.tsx:30-35 | Once the quantity is in range, quantity edits keep it in range. Selecting a tier with stock puts it in range. |
| TicketSection.ApplyValidation | src/components/tickets/TicketSection.tsx:63-77 | The stored discount is valid exactly when the validation route answered 200. It then carries the code's type and value. |
| TicketSection.Total | src/components/tickets/TicketSection.tsx:91-103 | With no ticket the total is 0, and without a valid discount it is price × quantity. A percentage saves exactly that share of the base. Any other type gives the larger of 0 and base minus the amount. |
| TicketSection.DiscountNeverRaisesTotal | src/components/tickets/TicketSection.tsx:91-103 | With a percentage in 0-100 or a non-negative amount, the total lies between 0 and the undiscounted price. |
| TicketSection.PercentageAboveHundredGoesNegative | src/components/tickets/TicketSection.tsx:98-99 | A percentage above 100 is not floored: 150% off 10 gives -5. |
| PurchasedEvents.LatestPerEvent | src/components/PurchasedEventList.tsx:22-30 | An event is a key exactly when it has an order. Its order has the greatest createdAt of that event, and on ties it is the first such order in the list. |
| PurchasedEvents.Store | src/components/PurchasedEventList.tsx:25-30 | One step of the loop adds the order's event to the keys and keeps every other key. |
| PurchasedEvents.StepKeys | src/components/PurchasedEventList.tsx:25-30 | After one more order, the keys are exactly the events with an order so far. |
| PurchasedEvents.StepLatest | src/components/PurchasedEventList.tsx:25-30 | After one more order, each stored order is still the latest of its event, with the earliest winning ties. |
| PurchasedEvents.StepReplaces | src/components/PurchasedEventList.tsx:26-28 | An order strictly newer than the stored one, or the first of its event, is the latest of its event. |
| PurchasedEvents.StepKeeps | src/components/PurchasedEventList.tsx:26-28 | An order that is not strictly newer leaves the stored order the latest of its event. |
| PurchasedEvents.TierLabel | src/components/PurchasedEventList.tsx:41-43 | With tier details the label is "<name, or Tier #id when the name is empty> - $<price>". Without them it is "Tier #<id>". |
| PurchasedEvents.CardsFor | src/components/PurchasedEventList.tsx:36-54 | The cards' events are exactly the listed events that have an order, in the listed order. Each card carries that event's stored order and its label. |
| PurchasedEvents.PurchasedEventList | src/components/PurchasedEventList.tsx:20-57 | An empty event list gives the "No purchased events" message. Otherwise the cards follow the events that have an order, in order, each with its latest order and labelled by `TierLabel`. |
| EventForm.AddTier | src/components/EventForm.tsx:35-37 | One empty tier is appended, and the other tiers and the codes are unchanged. |
| EventForm.RemoveTier | src/components/EventForm.tsx:39-43 | Tier i is dropped only when more than one tier is left and i is a valid index. Otherwise nothing changes. |
| EventForm.DropIndex | src/components/EventForm.tsx:41 | Filtering out index i leaves one element fewer: positions before i keep their element, and later positions hold the next one. An index out of range removes nothing. |
| EventForm.AddDiscountCode | src/components/EventForm.tsx:45-55 | One PERCENTAGE row with empty fields is appended, and nothing else changes. |
| EventForm.RemoveDiscountCode | src/components/EventForm.tsx:57-63 | Exactly the rows with that id are dropped, in order, and every other row keeps all its copies. The section is hidden once no row is left. |
| EventForm.AddDiscountCodeButton | src/components/EventForm.tsx:278-283 | The section is shown, and a first row is added only when there is none. |
| EventForm.ApplyKeepsWellFormed | src/components/EventForm.tsx:35-63 | Every edit keeps at least one tier, and keeps at least one row in a shown code section. |
| EventForm.ReachableWellFormed | src/components/EventForm.tsx:28-63 | After any sequence of edits, the tier list is never empty and a shown section is never empty. |
| EventForm.InitialWellFormed | src/components/EventForm.tsx:28-30 | The form starts with exactly one tier and no codes, and it is well formed. |
| InviteStaff.FilterUsers | src/components/InviteStaffList.tsx:20-22 | A user is kept exactly when the lower-cased e-mail (or "") contains the lower-cased query. The result is an order-preserving subsequence, and a kept user keeps all its copies. |
| InviteStaff.EmptyQueryKeepsAll | src/components/InviteStaffList.tsx:20-22 | An empty query keeps every user. |
| InviteStaff.QueryCaseIgnored | src/components/InviteStaffList.tsx:21 | A query and its lower-case form find the same users. |
| InviteStaff.EmailCaseIgnored | src/components/InviteStaffList.tsx:21 | Lower-casing a user's e-mail does not change whether the user matches. |
| InviteStaff.DefaultChecked | src/components/InviteStaffList.tsx:46 | A checkbox is pre-checked exactly when the user's id is among the invited ids. |
| Consistency.CheckoutCountsHoldTwice | src/app/api/orders/route.ts:93-120 | A checkout of q tickets lowers both createReservation's availability and remainingTickets by q. The completed hold keeps counting in the first, and the new order counts in the second. The waitlist figure does not move. |
| Consistency.CheckoutHidesUnsoldTicket | src/app/api/orders/route.ts:107-119 | A tier of 2 with one ticket bought through a hold reports 0 on both figures, although one ticket is unsold. |
| Consistency.ReservedDominated | src/lib/tickets.ts:17-19 | If each reservation weighs no more than its counterpart, the sum is no larger. |
| Consistency.SweepRaisesOnlyRemaining | src/lib/queue.ts:110-125 | With no negative hold, the sweep never lowers remainingTickets, and it leaves createReservation's figure unchanged. |
| Consistency.ExpiredHoldStrandsBuyer | src/lib/queue.ts:68-83 | After an expired hold of the whole stock is swept, remainingTickets shows 2 free tickets. Yet a hold of one is refused, and so is a waitlist join, because tickets count as available. |
| Flows.JoinThenCheck | src/app/api/waitlist/check/route.ts:11-22 | After a successful join, the check route, given the tier id in decimal, reports the caller as joined. |
| Flows.CheckoutAgreesWithValidate | src/app/api/orders/route.ts:52-90 | Take a good hold on an existing tier and a named code. Checkout succeeds exactly when the validation route calls that code valid. |
| Flows.ReleasedHoldNotLive | src/app/api/discount/check/route.ts:51-58 | A released discount hold is never reported live by the check route. |
| Flows.RegisterThenCheckIn | src/lib/socket.ts:40-58 | A registration just created checks in with its token once, and a second attempt fails. |

## Left out

- The Redis order queue (`enqueueOrder`, `dequeueOrder`) is I/O.
- RabbitMQ, e-mail delivery and templates are I/O.
- Cloud storage and QR image generation are foreign calls.
- Authentication is reduced to the session input: an optional user id, or an id and role in the middleware.
- Socket.IO setup, rooms and emits are transport. The emitted lists are returned instead.
- React rendering, fetch orchestration and the thin CRUD routes are UI or plumbing.
- The validation request in TicketSection is reduced to its blank-code guard (`WillValidate`) and the stored result (`ApplyValidation`).
- Concurrency is not modelled. Every call runs alone. createReservation's read-then-insert and checkout's use-count increment outside the transaction are modelled as single steps, and no race-freedom is claimed.
- Waitlist promotion and notification do not exist in the code, so there is nothing to model.
- Floating point is not modelled. Tier prices are integers, because `createEvent` reads them with `parseInt`. Discount values and totals are exact reals, and the client's rounding and `toFixed` are left out.
- `parseFloat` and `new Date(text)` are JavaScript built-ins. `CreateEvent` takes them as parameters. None stands for NaN or an Invalid Date.
- The clock is a parameter. `getFullYear()` and `getMonth() + 1` in the payment route are the parameters `fullYear` and `month`.
- `parseInt` is modelled for white space, sign, radix prefix and digits. Precision loss above 2^53 is left out.
- `toLowerCase` is modelled for ASCII letters only.
- Database failures are not modelled, and neither is what happens after a successful `createEvent` result: an Invalid Date or a NaN reaching the database, a unique-constraint race, the caught errors that become 500. The response is modelled only where the code's own checks decide it.
- Ids in JSON bodies are modelled as the integer JavaScript numbers that the app's own clients send. The discount routes read ids with `parseInt(x.toString())`, so a string id or a number with a fraction is parsed rather than refused: "0" is truthy and reads as 0, and "5x" or 1.5 reads as 5 or 1. Those inputs are not represented.
- Other JSON fields of the wrong JavaScript type, and form entries that are files, are left out. They make the handlers throw, which gives 500.
- The statistics that the release helper reads and logs after cancelling change nothing, so they are left out.
- The refund route, the hold-creating discount route and the ticket-reserve route are outside this model.
- Orders.Checkout: the request's ids and quantity are taken after `parseInt`, as integers, so NaN is not representable. A NaN `tierId` or `quantity` never equals the hold's field, so the route answers 400 "Invalid reservation"; the model cannot express that input. A NaN `reservationId` or `eventId` reaches Prisma, which throws (500); that is not modelled either.
- Orders.Checkout: the request's `eventId` is written into the order unchecked. Whether an unknown event id makes the insert fail depends on the database schema, which is not part of this model. The model answers 200 for any event id.
- Row ids: the model stores the row with id k at position k - 1 of its table, and gives a new row the id "table length + 1". This assumes no row is ever deleted and no id is ever skipped. The code does delete events, and a rolled-back insert can consume an autoincrement value. So the ids the model assigns are an assumption: the order id in `Orders.Checkout`'s answer, a new hold's id in `Queue.CreateReservation`, and the registration's position behind `Registrations.TokenOf`. The real values would be the database's next free id.
- Orders.Checkout: the route reads the clock twice, once for the hold's expiry (src/app/api/orders/route.ts:44) and once for the code's dates (line 77). The model uses one instant `now` for both, so a hold expiring between the two reads is not modelled.
- Middleware.Decide: the `config.matcher` that limits where the middleware runs is not modelled. The decision is the function's own answer for any path.
- Consistency.SweepRaisesOnlyRemaining: holds only when no hold has a negative quantity. The code accepts negative holds (`Queue.NegativeQuantityOverbooks`), and expiring one lowers `remainingTickets`.
- Flows.CheckoutAgreesWithValidate: requires a non-zero event id. The validation route treats 0 as missing, while checkout looks the code up with it.

=== FILE: check_in.dfy ===
/** The registration logic of the `monitor-event` and `check-in` handlers in
    src/lib/socket.ts. Joining rooms and emitting are transport and are left
    out; the emitted lists are returned instead. */
module CheckIn {
  import opened Wrappers
  import opened Seqs
  import opened Db

  /** The registrations of one event, in table order. */
  function EventRegistrations(regs: seq<Registration>, eventId: int): (r: seq<Registration>)
    ensures IsSubsequence(r, regs)
    ensures forall g :: g in r <==> g in regs && g.eventId == eventId
  {
    Filter(regs, (g: Registration) => g.eventId == eventId)
  }

  /** `monitor-event`: the list sent back to the monitoring client. */
  function MonitorEvent(st: State, eventId: int): (r: seq<Registration>)
    ensures forall g :: g in r <==> g in st.registrations && g.eventId == eventId
    ensures IsSubsequence(r, st.registrations)
  {
    EventRegistrations(st.registrations, eventId)
  }

  /** Where the registration with a token sits in the table, if anywhere. */
  function FindToken(regs: seq<Registration>, token: string): (r: Option<nat>)
    ensures r.Some? ==> r.value < |regs| && regs[r.value].qrCodeToken == token
    ensures r.Some? ==> forall j :: 0 <= j < r.value ==> regs[j].qrCodeToken != token
    ensures r.None? <==> forall i :: 0 <= i < |regs| ==> regs[i].qrCodeToken != token
  {
    FirstIndex(regs, (g: Registration) => g.qrCodeToken == token)
  }

  datatype CheckInResult =
    /** "Registration not found" is thrown and logged. */
    | RegistrationNotFound
    /** "Already checked in" is thrown and logged. */
    | AlreadyCheckedIn
    /** The list broadcast to the event's room. */
    | CheckedIn(broadcast: seq<Registration>)

  /** `check-in` with `{ qrCodeToken }` at time `now`. */
  function CheckInToken(st: State, now: Time, token: string): (r: (CheckInResult, State))
    ensures !r.0.CheckedIn? ==> r.1 == st
    ensures r.0 == RegistrationNotFound <==> FindToken(st.registrations, token).None?
    ensures r.0 == AlreadyCheckedIn <==>
      FindToken(st.registrations, token).Some? && st.registrations[FindToken(st.registrations, token).value].checkedIn
    ensures r.0.CheckedIn? ==>
      && FindToken(st.registrations, token).Some?
      && var i := FindToken(st.registrations, token).value;
      && !st.registrations[i].checkedIn
      // only that registration changes: checked in, at `now`
      && |r.1.registrations| == |st.registrations|
      && r.1.registrations[i] == st.registrations[i].(checkedIn := true, checkInTime := now)
      && (forall j :: 0 <= j < |st.registrations| && j != i ==> r.1.registrations[j] == st.registrations[j])
      && r.1 == st.(registrations := r.1.registrations)
      // the broadcast is the event's registrations after the update
      && (forall g :: g in r.0.broadcast <==> g in r.1.registrations && g.eventId == st.registrations[i].eventId)
      && IsSubsequence(r.0.broadcast, r.1.registrations)
  {
    match FindToken(st.registrations, token)
    case None => (RegistrationNotFound, st)
    case Some(i) =>
      var g := st.registrations[i];
      if g.checkedIn then (AlreadyCheckedIn, st)
      else
        var regs := st.registrations[i := g.(checkedIn := true, checkInTime := now)];
        (CheckedIn(EventRegistrations(regs, g.eventId)), st.(registrations := regs))
  }

  /** A registration is checked in at most once: the same token fails the
      second time, at any later time, and the check-in time stays the first. */
  lemma CheckInAtMostOnce(st: State, now: Time, later: Time, token: string)
    requires CheckInToken(st, now, token).0.CheckedIn?
    ensures var st' := CheckInToken(st, now, token).1;
      CheckInToken(st', later, token) == (AlreadyCheckedIn, st')
  {
    var i := FindToken(st.registrations, token).value;
    var regs' := CheckInToken(st, now, token).1.registrations;
    forall j | 0 <= j < i
      ensures regs'[j].qrCodeToken != token
    {
      assert regs'[j] == st.registrations[j];
    }
    FindTokenAt(regs', token, i);
  }

  /** The first registration carrying a token is the one found. */
  lemma FindTokenAt(regs: seq<Registration>, token: string, i: nat)
    requires i < |regs| && regs[i].qrCodeToken == token
    requires forall j :: 0 <= j < i ==> regs[j].qrCodeToken != token
    ensures FindToken(regs, token) == Some(i)
  {
    assert FindToken(regs, token).Some?;
  }

  /** Check-in never un-checks anyone. */
  lemma CheckInMonotone(st: State, now: Time, token: string, j: int)
    requires 0 <= j < |st.registrations| && st.registrations[j].checkedIn
    ensures var st' := CheckInToken(st, now, token).1;
      |st'.registrations| == |st.registrations| && st'.registrations[j].checkedIn
  {
  }
}

=== FILE: consistency.dfy ===
/** How the three availability figures of the ticket flow relate once holds,
    checkouts and sweeps interleave:
      - createReservation: stock minus every hold, whatever its status;
      - remainingTickets: stock minus CONFIRMED orders minus PENDING holds;
      - the waitlist join: stock minus PENDING holds.
    Checkout lowers the stock itself, so these lemmas describe the figures as
    the code computes them, not as an inventory would. */
module Consistency {
  import opened Wrappers
  import opened Db
  import opened Queue
  import opened Tickets
  import opened Waitlist
  import opened Orders

  /** A successful checkout of q tickets lowers the stock by q, yet the
      completed hold still counts for createReservation and the new CONFIRMED
      order counts for remainingTickets: both figures drop by q a second
      time, while the waitlist figure does not move. */
  lemma CheckoutCountsHoldTwice(st: State, now: Time, caller: Option<UserId>, req: CheckoutRequest)
    requires Checkout(st, now, caller, req).0.Created?
    ensures var after := Checkout(st, now, caller, req).1;
      && HoldAvailability(st, req.tierId).Some?
      && HoldAvailability(after, req.tierId) == Some(HoldAvailability(st, req.tierId).value - req.quantity)
      && RemainingTickets(after, req.tierId) == RemainingTickets(st, req.tierId) - req.quantity
      && WaitlistAvailability(after, req.tierId) == WaitlistAvailability(st, req.tierId)
  {
    var after := Checkout(st, now, caller, req).1;
    var t := req.tierId;
    var i := req.reservationId - 1;
    var hold := st.reservations[i];
    assert after.reservations == st.reservations[i := hold.(status := Completed)];
    ReservedUpdate(st.reservations, i, hold.(status := Completed), t, AllStatuses);
    ReservedUpdate(st.reservations, i, hold.(status := Completed), t, PendingOnly);
    var order := after.orders[|st.orders|];
    assert after.orders == st.orders + [order];
    SoldAppend(st.orders, order, t);
  }

  /** So a tier of 2 with one ticket bought through a hold reports none left
      on either figure, although one ticket was never sold. */
  lemma CheckoutHidesUnsoldTicket()
    ensures
      var st := State([Tier(1, 10, 2)], [TicketReservation(1, "a", 1, Pending, 100)], [], [], [], [], []);
      var req := CheckoutRequest(1, 1, 1, 10.0, "", 1);
      var after := Checkout(st, 50, Some("a"), req);
      && after.0.Created?
      && after.1.tiers[0].quantity == 1
      && HoldAvailability(after.1, 1) == Some(0)
      && RemainingTickets(after.1, 1) == 0
  {
    var st := State([Tier(1, 10, 2)], [TicketReservation(1, "a", 1, Pending, 100)], [], [], [], [], []);
    var req := CheckoutRequest(1, 1, 1, 10.0, "", 1);
    assert HoldMatches(st, "a", req);
    assert Reserved(st.reservations, 1, AllStatuses) == 1 by { assert st.reservations[..0] == []; }
    assert Reserved(st.reservations, 1, PendingOnly) == 1;
    assert Sold(st.orders, 1) == 0;
    assert RemainingTickets(st, 1) == 1;
    CheckoutCountsHoldTwice(st, 50, Some("a"), req);
  }

  /** Sums over two tables where every row of the first weighs no more than
      the matching row of the second. */
  lemma {:induction false} ReservedDominated(rs: seq<TicketReservation>, rs': seq<TicketReservation>, tierId: Id, counted: set<ResStatus>)
    requires |rs'| == |rs|
    requires forall i :: 0 <= i < |rs| ==> Weight(rs'[i], tierId, counted) <= Weight(rs[i], tierId, counted)
    ensures Reserved(rs', tierId, counted) <= Reserved(rs, tierId, counted)
  {
    if |rs| > 0 {
      var n := |rs| - 1;
      ReservedDominated(rs[..n], rs'[..n], tierId, counted);
    }
  }

  /** With no negative hold (createReservation does not refuse one), the
      sweep can only raise remainingTickets, as an expired hold stops
      counting there, while createReservation's figure stays put. */
  lemma SweepRaisesOnlyRemaining(st: State, now: Time, tierId: Id)
    requires forall i :: 0 <= i < |st.reservations| ==> st.reservations[i].quantity >= 0
    ensures RemainingTickets(Sweep(st, now), tierId) >= RemainingTickets(st, tierId)
    ensures HoldAvailability(Sweep(st, now), tierId) == HoldAvailability(st, tierId)
  {
    var s := Sweep(st, now);
    forall i | 0 <= i < |st.reservations|
      ensures Weight(s.reservations[i], tierId, PendingOnly) <= Weight(st.reservations[i], tierId, PendingOnly)
    {
      assert s.reservations[i] == Expire(st.reservations[i], now);
    }
    ReservedDominated(st.reservations, s.reservations, tierId, PendingOnly);
    SweepKeepsHoldAvailability(st, now, tierId);
  }

  /** A buyer can be refused everywhere. When a hold of the whole stock
      expires and is swept, remainingTickets shows both tickets again, yet a
      new hold of one is refused (the expired hold still counts) and so is a
      waitlist join (tickets count as available). */
  lemma ExpiredHoldStrandsBuyer()
    ensures
      var s := Sweep(State([Tier(1, 10, 2)], [TicketReservation(1, "a", 2, Pending, 0)], [], [], [], [], []), 1);
      && RemainingTickets(s, 1) == 2
      && CreateReservation(s, 1, "b", 1, 1).0.None?
      && JoinWaitlist(s, Some("b"), 1, 1).0 == TicketsAvailable
  {
    var s := Sweep(State([Tier(1, 10, 2)], [TicketReservation(1, "a", 2, Pending, 0)], [], [], [], [], []), 1);
    assert s.reservations == [TicketReservation(1, "a", 2, Expired, 0)];
    assert s.reservations[..0] == [];
    assert Reserved(s.reservations, 1, AllStatuses) == 2;
    assert Reserved(s.reservations, 1, PendingOnly) == 0;
    assert Sold(s.orders, 1) == 0;
  }
}

=== FILE: create_event.dfy ===
/** `createEvent` of src/lib/actions.ts: reading the event form, keeping the
    well-formed discount-code rows, and the checks made before the event is
    written. `parseFloat` and `new Date(...)` are JavaScript built-ins and are
    parameters here; the write itself is the returned draft. */
module CreateEvent {
  import opened Wrappers
  import opened Seqs
  import opened Text
  import opened Db

  /** One form entry; file entries are not modelled. */
  datatype Entry = Entry(name: string, value: string)

  /** `formData.get(name)`: the first entry's value, or null. */
  function Get(form: seq<Entry>, name: string): (r: Option<string>)
    ensures r.None? <==> forall i :: 0 <= i < |form| ==> form[i].name != name
    ensures r.Some? ==> exists i :: 0 <= i < |form| && form[i] == Entry(name, r.value)
                                  && forall j :: 0 <= j < i ==> form[j].name != name
  {
    match FirstIndex(form, (e: Entry) => e.name == name)
    case None => None
    case Some(i) => Some(form[i].value)
  }

  /** `formData.getAll(name)`: every value under that name, in order. */
  function GetAll(form: seq<Entry>, name: string): (r: seq<string>)
    ensures |r| <= |form|
    ensures forall v :: v in r <==> Entry(name, v) in form
  {
    if |form| == 0 then []
    else if form[0].name == name then [form[0].value] + GetAll(form[1..], name)
    else GetAll(form[1..], name)
  }

  /** Reading a form made of two parts reads the first part's values, then
      the second's: order and repetitions are kept. */
  lemma {:induction false} GetAllAppend(a: seq<Entry>, b: seq<Entry>, name: string)
    ensures GetAll(a + b, name) == GetAll(a, name) + GetAll(b, name)
    decreases |a|
  {
    if |a| == 0 {
      assert a + b == b;
    } else {
      assert (a + b)[1..] == a[1..] + b;
      GetAllAppend(a[1..], b, name);
    }
  }

  /** A single entry is read exactly when its name matches. */
  lemma GetAllOne(e: Entry, name: string)
    ensures GetAll([e], name) == if e.name == name then [e.value] else []
  {
    assert [e][1..] == [];
  }

  /** `Array.from(formData.keys())`: one name per entry, duplicates kept. */
  function Keys(form: seq<Entry>): (r: seq<string>)
    ensures |r| == |form| && forall i :: 0 <= i < |form| ==> r[i] == form[i].name
  {
    seq(|form|, i requires 0 <= i < |form| => form[i].name)
  }

  /** A form value is truthy when present and non-empty. */
  predicate Truthy(v: Option<string>) {
    v.Some? && v.value != ""
  }

  /** `!v || v.trim() === ""` is false: present and not blank. */
  predicate NonBlank(v: Option<string>) {
    v.Some? && Trim(v.value) != []
  }

  // The regular expression /discountCodes\[(.*?)\]\.code/, unanchored.

  const KeyPrefix := "discountCodes["
  const KeySuffix := "].code"

  /** The lazy `(.*?)\]\.code` from position `from`: the first place where
      "].code" starts, provided no line terminator (which `.` does not
      match) comes before it. */
  function LazyClose(s: string, from: nat): (r: Option<nat>)
    requires from <= |s|
    ensures r.Some? ==> from <= r.value <= |s| && StartsWith(s[r.value..], KeySuffix)
    ensures r.Some? ==> forall k :: from <= k < r.value ==> !IsLineTerminator(s[k]) && !StartsWith(s[k..], KeySuffix)
    decreases |s| - from
  {
    if StartsWith(s[from..], KeySuffix) then Some(from)
    else if from < |s| && !IsLineTerminator(s[from]) then LazyClose(s, from + 1)
    else None
  }

  /** The captured id when the pattern matches starting at position i. */
  function MatchAt(s: string, i: nat): (r: Option<string>)
    requires i <= |s|
  {
    if !StartsWith(s[i..], KeyPrefix) then None
    else match LazyClose(s, i + |KeyPrefix|)
      case None => None
      case Some(j) => Some(s[i + |KeyPrefix|..j])
  }

  /** The leftmost position, from `from` on, where the pattern matches. */
  function MatchPos(s: string, from: nat): (p: Option<nat>)
    requires from <= |s|
    ensures p.Some? ==> from <= p.value <= |s| && MatchAt(s, p.value).Some?
    ensures p.Some? ==> forall j :: from <= j < p.value ==> MatchAt(s, j).None?
    ensures p.None? ==> forall i :: from <= i <= |s| ==> MatchAt(s, i).None?
    decreases |s| - from
  {
    if MatchAt(s, from).Some? then Some(from)
    else if from == |s| then None
    else MatchPos(s, from + 1)
  }

  /** `key.match(/discountCodes\[(.*?)\]\.code/)?.[1]`: the id captured at the
      leftmost position where the pattern matches. */
  function ExtractId(s: string, from: nat): (r: Option<string>)
    requires from <= |s|
    ensures r.Some? ==> exists i :: from <= i <= |s| && MatchAt(s, i) == r
                                  && forall j :: from <= j < i ==> MatchAt(s, j).None?
    ensures r.None? ==> forall i :: from <= i <= |s| ==> MatchAt(s, i).None?
  {
    match MatchPos(s, from)
    case None => None
    case Some(i) => MatchAt(s, i)
  }

  /** The key "discountCodes[<id>].code" gives back <id>, for an id without
      "]" or line terminators. */
  lemma KeyIdRoundTrip(id: string)
    requires ']' !in id && forall k :: 0 <= k < |id| ==> !IsLineTerminator(id[k])
    ensures ExtractId(KeyPrefix + id + KeySuffix, 0) == Some(id)
  {
    var s := KeyPrefix + id + KeySuffix;
    var close := |KeyPrefix| + |id|;
    assert s[..|KeyPrefix|] == KeyPrefix;
    assert s[|KeyPrefix|..close] == id;
    assert s[close..] == KeySuffix;
    ExtractIdOfKey(s, id);
  }

  /** The same, for a text already known to be laid out as such a key. */
  lemma ExtractIdOfKey(s: string, id: string)
    requires |s| == |KeyPrefix| + |id| + |KeySuffix|
    requires s[..|KeyPrefix|] == KeyPrefix && s[|KeyPrefix|..|KeyPrefix| + |id|] == id
    requires s[|KeyPrefix| + |id|..] == KeySuffix
    requires ']' !in id && forall k :: 0 <= k < |id| ==> !IsLineTerminator(id[k])
    ensures ExtractId(s, 0) == Some(id)
  {
    var start := |KeyPrefix|;
    var close := start + |id|;
    forall k | start <= k < close
      ensures s[k] != ']' && !IsLineTerminator(s[k])
    {
      assert s[k] == s[start..close][k - start];
    }
    LazyCloseFinds(s, start, close);
    assert StartsWith(s[0..], KeyPrefix) by { assert s[0..] == s; }
    assert MatchAt(s, 0) == Some(id);
  }

  /** Scanning from `from` reaches `close` when nothing before it stops or
      ends the scan. */
  lemma {:induction false} LazyCloseFinds(s: string, from: nat, close: nat)
    requires from <= close <= |s| && StartsWith(s[close..], KeySuffix)
    requires forall k :: from <= k < close ==> s[k] != ']' && !IsLineTerminator(s[k])
    ensures LazyClose(s, from) == Some(close)
    decreases close - from
  {
    if from < close {
      assert s[from..][0] == s[from];
      LazyCloseFinds(s, from + 1, close);
    }
  }

  /** A discount-code row as handed to the database. */
  datatype CodeDraft = CodeDraft(
    code: string, discountType: string, discountValue: real,
    maxUses: Option<JsInt>, startDate: Option<Option<Time>>, endDate: Option<Option<Time>>,
    currentUses: int)

  /** `formData.get(`discountCodes[${id}].<field>`)`. */
  function CodeField(form: seq<Entry>, id: string, field: string): Option<string> {
    Get(form, "discountCodes[" + id + "]." + field)
  }

  /** The row for one matched key: kept only when its code and type are
      non-empty and its value parses as a number. `parseFloat(null)` reads
      the text "null". A date that does not parse is Some(None), an Invalid
      Date. */
  function CodeRowFor(form: seq<Entry>, id: string, parseFloat: string -> Option<real>,
                      parseDate: string -> Option<Time>): (r: Option<CodeDraft>)
    ensures r.Some? <==>
      && Truthy(CodeField(form, id, "code"))
      && Truthy(CodeField(form, id, "discountType"))
      && parseFloat(CodeField(form, id, "discountValue").GetOr("null")).Some?
    // the kept row carries the form's code, type and parsed value, unused
    ensures r.Some? ==>
      && r.value.code == CodeField(form, id, "code").value
      && r.value.discountType == CodeField(form, id, "discountType").value
      && parseFloat(CodeField(form, id, "discountValue").GetOr("null")) == Some(r.value.discountValue)
      && r.value.currentUses == 0
    // a non-empty limit is read by parseInt, non-empty dates by new Date
    ensures r.Some? ==>
      && (if Truthy(CodeField(form, id, "maxUses"))
          then r.value.maxUses == Some(ParseInt(CodeField(form, id, "maxUses").value, Auto))
          else r.value.maxUses.None?)
      && (if Truthy(CodeField(form, id, "startDate"))
          then r.value.startDate == Some(parseDate(CodeField(form, id, "startDate").value))
          else r.value.startDate.None?)
      && (if Truthy(CodeField(form, id, "endDate"))
          then r.value.endDate == Some(parseDate(CodeField(form, id, "endDate").value))
          else r.value.endDate.None?)
  {
    var code := CodeField(form, id, "code");
    var kind := CodeField(form, id, "discountType");
    var value := parseFloat(CodeField(form, id, "discountValue").GetOr("null"));
    var maxUses := CodeField(form, id, "maxUses");
    var startDate := CodeField(form, id, "startDate");
    var endDate := CodeField(form, id, "endDate");
    if Truthy(code) && Truthy(kind) && value.Some? then
      Some(CodeDraft(
        code.value, kind.value, value.value,
        if Truthy(maxUses) then Some(ParseInt(maxUses.value, Auto)) else None,
        if Truthy(startDate) then Some(parseDate(startDate.value)) else None,
        if Truthy(endDate) then Some(parseDate(endDate.value)) else None,
        0))
    else None
  }

  /** The row a form key yields: None unless the key matches the pattern
      and its row is kept. */
  function KeyRow(form: seq<Entry>, key: string, parseFloat: string -> Option<real>,
                  parseDate: string -> Option<Time>): Option<CodeDraft>
  {
    match ExtractId(key, 0)
    case None => None
    case Some(id) => CodeRowFor(form, id, parseFloat, parseDate)
  }

  /** The loop over the form's keys that match the pattern, in key order:
      every kept row comes from some key, and every key's row is kept. */
  function CodeDrafts(form: seq<Entry>, keys: seq<string>, parseFloat: string -> Option<real>,
                      parseDate: string -> Option<Time>): (r: seq<CodeDraft>)
    ensures |r| <= |keys|
    ensures forall key :: key in keys && KeyRow(form, key, parseFloat, parseDate).Some? ==>
      KeyRow(form, key, parseFloat, parseDate).value in r
    ensures forall d :: d in r ==>
      exists key :: key in keys && KeyRow(form, key, parseFloat, parseDate) == Some(d)
  {
    FilterMap(keys, (key: string) => KeyRow(form, key, parseFloat, parseDate))
  }

  /** The rows follow the key order: the rows of two runs of keys are the
      first run's rows, then the second's, */
  lemma CodeDraftsAppend(form: seq<Entry>, k1: seq<string>, k2: seq<string>,
                         parseFloat: string -> Option<real>, parseDate: string -> Option<Time>)
    ensures CodeDrafts(form, k1 + k2, parseFloat, parseDate)
         == CodeDrafts(form, k1, parseFloat, parseDate) + CodeDrafts(form, k2, parseFloat, parseDate)
  {
    FilterMapAppend(k1, k2, (key: string) => KeyRow(form, key, parseFloat, parseDate));
  }

  /** and a single key yields its own row, or nothing. */
  lemma CodeDraftsOne(form: seq<Entry>, key: string,
                      parseFloat: string -> Option<real>, parseDate: string -> Option<Time>)
    ensures var row := KeyRow(form, key, parseFloat, parseDate);
      CodeDrafts(form, [key], parseFloat, parseDate) == if row.Some? then [row.value] else []
  {
    FilterMapOne(key, (key: string) => KeyRow(form, key, parseFloat, parseDate));
  }

  /** `new Set(prices).size !== prices.length`. `Set` treats NaN as equal to
      NaN, as the datatype's equality does. */
  predicate HasDuplicate(s: seq<JsInt>) {
    exists i, j :: 0 <= i < j < |s| && s[i] == s[j]
  }

  /** The data passed to `prisma.event.create`. */
  datatype EventDraft = EventDraft(
    name: string, location: string, eventType: string,
    startTime: Option<Time>, endTime: Option<Time>, ownerId: UserId,
    tiers: seq<(JsInt, JsInt)>, discountCodes: seq<CodeDraft>)

  /** The errors `createEvent` throws, in the order it checks them. */
  datatype EventError =
    | Unauthorized | NameRequired | TypeRequired | LocationRequired
    | StartRequired | EndRequired | EndNotAfterStartTime | TierMismatch | DuplicatePrice
  {
    function Message(): string {
      match this
      case Unauthorized => "Unauthorized"
      case NameRequired => "Event name is required"
      case TypeRequired => "Event type is required"
      case LocationRequired => "Event location is required"
      case StartRequired => "Event start time is required"
      case EndRequired => "Event end time is required"
      case EndNotAfterStartTime => "Event end time must be after start time"
      case TierMismatch => "Ticket tier information mismatch"
      case DuplicatePrice => "Each ticket tier must have a unique price"
    }
  }

  datatype CreateResult = Failure(error: EventError) | Created(draft: EventDraft)

  /** `new Date(start) >= new Date(end)`: false when either is an Invalid Date. */
  predicate EndNotAfterStart(start: Option<Time>, end: Option<Time>) {
    start.Some? && end.Some? && start.value >= end.value
  }

  /** The form fields `createEvent` reads, prices and quantities already
      through `parseInt`. */
  datatype EventFields = EventFields(
    name: Option<string>, eventType: Option<string>, location: Option<string>,
    startTime: Option<string>, endTime: Option<string>,
    prices: seq<JsInt>, quantities: seq<JsInt>)

  function ReadFields(form: seq<Entry>): EventFields {
    EventFields(Get(form, "name"), Get(form, "type"), Get(form, "location"),
                Get(form, "startTime"), Get(form, "endTime"),
                ParsedAll(GetAll(form, "prices[]")), ParsedAll(GetAll(form, "quantities[]")))
  }

  /** The first check that throws, in the order `createEvent` makes them. */
  function FirstProblem(user: Option<UserId>, f: EventFields, parseDate: string -> Option<Time>): (p: Option<EventError>)
    ensures p == Some(Unauthorized) <==> user.None?
    ensures p == Some(NameRequired) <==> user.Some? && !NonBlank(f.name)
    ensures p == Some(TypeRequired) <==> user.Some? && NonBlank(f.name) && !NonBlank(f.eventType)
    ensures p == Some(LocationRequired) <==>
      user.Some? && NonBlank(f.name) && NonBlank(f.eventType) && !NonBlank(f.location)
    ensures p == Some(StartRequired) <==>
      user.Some? && NonBlank(f.name) && NonBlank(f.eventType) && NonBlank(f.location) && !Truthy(f.startTime)
    ensures p == Some(EndRequired) <==>
      user.Some? && NonBlank(f.name) && NonBlank(f.eventType) && NonBlank(f.location) && Truthy(f.startTime)
      && !Truthy(f.endTime)
    ensures p == Some(EndNotAfterStartTime) <==>
      user.Some? && NonBlank(f.name) && NonBlank(f.eventType) && NonBlank(f.location)
      && Truthy(f.startTime) && Truthy(f.endTime)
      && EndNotAfterStart(parseDate(f.startTime.value), parseDate(f.endTime.value))
    ensures p == Some(TierMismatch) ==> |f.prices| != |f.quantities|
    ensures p == Some(DuplicatePrice) ==> |f.prices| == |f.quantities| && HasDuplicate(f.prices)
    ensures p.None? <==>
      && user.Some? && NonBlank(f.name) && NonBlank(f.eventType) && NonBlank(f.location)
      && Truthy(f.startTime) && Truthy(f.endTime)
      && !EndNotAfterStart(parseDate(f.startTime.value), parseDate(f.endTime.value))
      && |f.prices| == |f.quantities| && !HasDuplicate(f.prices)
  {
    if user.None? then Some(Unauthorized)
    else if !NonBlank(f.name) then Some(NameRequired)
    else if !NonBlank(f.eventType) then Some(TypeRequired)
    else if !NonBlank(f.location) then Some(LocationRequired)
    else if !Truthy(f.startTime) then Some(StartRequired)
    else if !Truthy(f.endTime) then Some(EndRequired)
    else if EndNotAfterStart(parseDate(f.startTime.value), parseDate(f.endTime.value)) then Some(EndNotAfterStartTime)
    else if |f.prices| != |f.quantities| then Some(TierMismatch)
    else if HasDuplicate(f.prices) then Some(DuplicatePrice)
    else None
  }

  /** The tiers: prices and quantities zipped. */
  function Zip(prices: seq<JsInt>, quantities: seq<JsInt>): (tiers: seq<(JsInt, JsInt)>)
    requires |prices| == |quantities|
    ensures |tiers| == |prices| && forall i :: 0 <= i < |prices| ==> tiers[i] == (prices[i], quantities[i])
  {
    seq(|prices|, i requires 0 <= i < |prices| => (prices[i], quantities[i]))
  }

  /** `createEvent(formData)` for the signed-in `user`: the first failing
      check's error, or the event to write. */
  function CreateEventFrom(user: Option<UserId>, form: seq<Entry>, parseFloat: string -> Option<real>,
                           parseDate: string -> Option<Time>): (r: CreateResult)
    ensures r.Failure? <==> FirstProblem(user, ReadFields(form), parseDate).Some?
    ensures r.Failure? ==> r.error == FirstProblem(user, ReadFields(form), parseDate).value
    ensures r.Created? ==>
      var f := ReadFields(form);
      && user.Some? && r.draft.ownerId == user.value
      && Some(r.draft.name) == f.name && Some(r.draft.eventType) == f.eventType && Some(r.draft.location) == f.location
      && r.draft.startTime == parseDate(f.startTime.value) && r.draft.endTime == parseDate(f.endTime.value)
      && !EndNotAfterStart(r.draft.startTime, r.draft.endTime)
      // one tier per price, paired with its quantity, prices distinct
      && |r.draft.tiers| == |f.prices| == |f.quantities|
      && (forall i :: 0 <= i < |f.prices| ==> r.draft.tiers[i] == (f.prices[i], f.quantities[i]))
      && (forall i, j :: 0 <= i < j < |r.draft.tiers| ==> r.draft.tiers[i].0 != r.draft.tiers[j].0)
      && r.draft.discountCodes == CodeDrafts(form, Keys(form), parseFloat, parseDate)
  {
    var f := ReadFields(form);
    match FirstProblem(user, f, parseDate)
    case Some(e) => Failure(e)
    case None =>
      Created(EventDraft(f.name.value, f.location.value, f.eventType.value, parseDate(f.startTime.value),
                         parseDate(f.endTime.value), user.value, Zip(f.prices, f.quantities),
                         CodeDrafts(form, Keys(form), parseFloat, parseDate)))
  }

  /** `.map((p) => parseInt(p.toString()))`. */
  function ParsedAll(texts: seq<string>): (r: seq<JsInt>)
    ensures |r| == |texts| && forall i :: 0 <= i < |texts| ==> r[i] == ParseInt(texts[i], Auto)
  {
    seq(|texts|, i requires 0 <= i < |texts| => ParseInt(texts[i], Auto))
  }

  /** The start must be strictly before the end: equal times are refused. */
  lemma EqualTimesRefused(user: UserId, f: EventFields, parseDate: string -> Option<Time>)
    requires NonBlank(f.name) && NonBlank(f.eventType) && NonBlank(f.location)
    requires Truthy(f.startTime) && Truthy(f.endTime)
    requires parseDate(f.startTime.value).Some? && parseDate(f.startTime.value) == parseDate(f.endTime.value)
    ensures FirstProblem(Some(user), f, parseDate) == Some(EndNotAfterStartTime)
  {
  }

  /** An unparsable date passes the ordering check, because every comparison
      with an Invalid Date is false. */
  lemma InvalidDatePassesOrderCheck(user: UserId, f: EventFields, parseDate: string -> Option<Time>)
    requires parseDate(f.startTime.GetOr("")).None?
    ensures FirstProblem(Some(user), f, parseDate) != Some(EndNotAfterStartTime)
  {
  }

  /** Two prices that both fail to parse count as the same price. */
  lemma TwoUnparsablePricesClash(a: string, b: string)
    requires |a| > 0 && |b| > 0 && IsLetter(a[0]) && IsLetter(b[0])
    ensures HasDuplicate(ParsedAll([a, b]))
  {
    ParseIntOfLetter(a, Auto);
    ParseIntOfLetter(b, Auto);
    var ps := ParsedAll([a, b]);
    assert ps[0] == ps[1];
  }
}

=== FILE: db.dfy ===
/** The database the route handlers read and write, as one immutable value.
    Each table is a sequence; the row with id k sits at position k - 1, which is
    how an autoincrement key numbers rows when none is ever deleted (the core
    never deletes). Id 0 therefore never names a row. Times are milliseconds. */
module Db {
  import opened Wrappers

  type UserId = string
  type Time = int
  type Id = int

  /** The status of a ticket reservation or a discount reservation. */
  datatype ResStatus = Pending | Completed | Expired | Cancelled

  const AllStatuses: set<ResStatus> := {Pending, Completed, Expired, Cancelled}
  const PendingOnly: set<ResStatus> := {Pending}

  /** A ticket tier. `quantity` is the stock still for sale: checkout lowers it. */
  datatype Tier = Tier(eventId: int, price: int, quantity: int)

  /** A ticket hold. */
  datatype TicketReservation = TicketReservation(
    tierId: Id, userId: UserId, quantity: int, status: ResStatus, expiresAt: Time)

  datatype DiscountType = Percentage | FixedAmount

  /** A discount code; absent bounds are NULL columns. */
  datatype DiscountCode = DiscountCode(
    eventId: int, code: string, discountType: DiscountType, discountValue: real,
    maxUses: Option<int>, currentUses: int, startDate: Option<Time>, endDate: Option<Time>)

  /** A discount-code hold, optionally linked to a ticket hold. */
  datatype DiscountReservation = DiscountReservation(
    discountCodeId: Id, userId: UserId, status: ResStatus, expiresAt: Time,
    ticketReservationId: Option<Id>)

  datatype OrderStatus = OrderPending | Confirmed | OrderCancelled

  datatype Order = Order(
    userId: UserId, eventId: int, tierId: Id, quantity: int, totalAmount: real,
    status: OrderStatus, discountCodeId: Option<Id>, createdAt: Time)

  datatype WaitStatus = Waiting | Notified | Purchased | WaitExpired

  datatype WaitlistEntry = WaitlistEntry(
    userId: UserId, tierId: Id, eventId: int, quantity: int, status: WaitStatus)

  /** An attendee's registration; `qrCodeToken` is a unique key. */
  datatype Registration = Registration(
    qrCodeToken: string, userId: UserId, eventId: int, checkedIn: bool, checkInTime: Time)

  datatype State = State(
    tiers: seq<Tier>,
    reservations: seq<TicketReservation>,
    codes: seq<DiscountCode>,
    discountHolds: seq<DiscountReservation>,
    orders: seq<Order>,
    waitlist: seq<WaitlistEntry>,
    registrations: seq<Registration>)

  /** An id field of a request body that JavaScript treats as false: absent, or 0. */
  predicate Missing(id: Option<int>) {
    id.None? || id.value == 0
  }

  /** `findUnique({ where: { id } })`. */
  function Row<T>(table: seq<T>, id: Id): (r: Option<T>)
    ensures r.Some? <==> 1 <= id <= |table|
    ensures r.Some? ==> r.value == table[id - 1]
  {
    if 1 <= id <= |table| then Some(table[id - 1]) else None
  }

  /** What a reservation adds to a sum over the tier's reservations whose status is counted. */
  function Weight(r: TicketReservation, tierId: Id, counted: set<ResStatus>): int {
    if r.tierId == tierId && r.status in counted then r.quantity else 0
  }

  /** The sum of the quantities of the tier's reservations whose status is in `counted`. */
  function Reserved(rs: seq<TicketReservation>, tierId: Id, counted: set<ResStatus>): int {
    if |rs| == 0 then 0
    else Reserved(rs[..|rs| - 1], tierId, counted) + Weight(rs[|rs| - 1], tierId, counted)
  }

  /** Appending a reservation adds its weight. */
  lemma ReservedAppend(rs: seq<TicketReservation>, r: TicketReservation, tierId: Id, counted: set<ResStatus>)
    ensures Reserved(rs + [r], tierId, counted) == Reserved(rs, tierId, counted) + Weight(r, tierId, counted)
  {
    assert (rs + [r])[..|rs|] == rs;
  }

  /** Replacing one reservation changes the sum by the difference of weights. */
  lemma {:induction false} ReservedUpdate(rs: seq<TicketReservation>, i: nat, r: TicketReservation, tierId: Id, counted: set<ResStatus>)
    requires i < |rs|
    ensures Reserved(rs[i := r], tierId, counted)
         == Reserved(rs, tierId, counted) - Weight(rs[i], tierId, counted) + Weight(r, tierId, counted)
  {
    var rs' := rs[i := r];
    var n := |rs| - 1;
    if i == n {
      assert rs'[..n] == rs[..n];
    } else {
      assert rs'[..n] == rs[..n][i := r];
      ReservedUpdate(rs[..n], i, r, tierId, counted);
    }
  }

  /** Two tables whose rows weigh the same have the same sum. */
  lemma {:induction false} ReservedPointwise(rs: seq<TicketReservation>, rs': seq<TicketReservation>, tierId: Id, counted: set<ResStatus>)
    requires |rs'| == |rs|
    requires forall i :: 0 <= i < |rs| ==> Weight(rs'[i], tierId, counted) == Weight(rs[i], tierId, counted)
    ensures Reserved(rs', tierId, counted) == Reserved(rs, tierId, counted)
  {
    if |rs| > 0 {
      var n := |rs| - 1;
      ReservedPointwise(rs[..n], rs'[..n], tierId, counted);
    }
  }

  /** The sum of the quantities of the tier's CONFIRMED orders. */
  function Sold(os: seq<Order>, tierId: Id): int {
    if |os| == 0 then 0
    else
      var o := os[|os| - 1];
      Sold(os[..|os| - 1], tierId) + (if o.tierId == tierId && o.status == Confirmed then o.quantity else 0)
  }

  /** Appending an order adds its quantity to the sold count exactly when it is a
      CONFIRMED order of that tier. */
  lemma SoldAppend(os: seq<Order>, o: Order, tierId: Id)
    ensures Sold(os + [o], tierId)
         == Sold(os, tierId) + (if o.tierId == tierId && o.status == Confirmed then o.quantity else 0)
  {
    assert (os + [o])[..|os|] == os;
  }
}

=== FILE: discount_check.dfy ===
/** src/app/api/discount/check/route.ts: does the caller still hold a live
    reservation on a discount code, and for how many whole minutes. */
module DiscountCheck {
  import opened Wrappers
  import opened Seqs
  import opened Db

  const MsPerMinute: int := 1000 * 60

  /** A discount hold that counts as live for this caller and code at `now`:
      PENDING, and expiring strictly after `now`. */
  predicate LiveHold(h: DiscountReservation, user: UserId, codeId: Id, now: Time) {
    h.discountCodeId == codeId && h.userId == user && h.status == Pending && h.expiresAt > now
  }

  datatype CheckResponse =
    | AuthenticationRequired
    | MissingCodeId
    | UnknownCode
    | NoLiveHold
    | Valid(discountReservationId: Id, reservationExpiry: Time,
            discountType: DiscountType, discountValue: real, minutesRemaining: int)
  {
    function Status(): int {
      match this
      case AuthenticationRequired => 401
      case MissingCodeId => 400
      case UnknownCode => 404
      case NoLiveHold => 400
      case Valid(_, _, _, _, _) => 200
    }
  }

  /** `POST /api/discount/check` with body `{ discountCodeId }`. Read-only. */
  function CheckHold(st: State, now: Time, caller: Option<UserId>, codeId: Option<int>): (r: CheckResponse)
    ensures r == AuthenticationRequired <==> caller.None?
    ensures r == MissingCodeId <==> caller.Some? && Missing(codeId)
    ensures r == UnknownCode <==> caller.Some? && !Missing(codeId) && Row(st.codes, codeId.value).None?
    ensures r == NoLiveHold <==>
      && caller.Some? && !Missing(codeId) && Row(st.codes, codeId.value).Some?
      && forall j :: 0 <= j < |st.discountHolds| ==> !LiveHold(st.discountHolds[j], caller.value, codeId.value, now)
    ensures r.Valid? ==>
      && caller.Some? && !Missing(codeId) && Row(st.codes, codeId.value).Some?
      && Row(st.discountHolds, r.discountReservationId).Some?
      && LiveHold(st.discountHolds[r.discountReservationId - 1], caller.value, codeId.value, now)
      && r.reservationExpiry == st.discountHolds[r.discountReservationId - 1].expiresAt
      && r.discountType == st.codes[codeId.value - 1].discountType
      && r.discountValue == st.codes[codeId.value - 1].discountValue
    // whole minutes left, rounded down, so never negative
    ensures r.Valid? ==>
      && r.minutesRemaining >= 0
      && r.minutesRemaining * MsPerMinute <= r.reservationExpiry - now < (r.minutesRemaining + 1) * MsPerMinute
  {
    if caller.None? then AuthenticationRequired
    else if Missing(codeId) then MissingCodeId
    else match Row(st.codes, codeId.value)
      case None => UnknownCode
      case Some(code) =>
        match FirstIndex(st.discountHolds, (h: DiscountReservation) => LiveHold(h, caller.value, codeId.value, now))
        case None => NoLiveHold
        case Some(i) =>
          var h := st.discountHolds[i];
          Valid(i + 1, h.expiresAt, code.discountType, code.discountValue, (h.expiresAt - now) / MsPerMinute)
  }
}

=== FILE: discount_link.dfy ===
/** src/app/api/discount/reserve/route.ts: linking the caller's discount hold
    to one of the caller's ticket holds. */
module DiscountLink {
  import opened Wrappers
  import opened Db

  datatype LinkResponse =
    | AuthenticationRequired
    | MissingDiscountHoldId
    | MissingTicketHoldId
    | DiscountHoldNotFound
    | TicketHoldNotFound
    /** The hold's code row is gone; the foreign key rules this out. */
    | ServerError
    | Linked(discountReservationId: Id, ticketReservationId: Id,
             code: string, discountType: DiscountType, discountValue: real)
  {
    function Status(): int {
      match this
      case AuthenticationRequired => 401
      case MissingDiscountHoldId => 400
      case MissingTicketHoldId => 400
      case DiscountHoldNotFound => 404
      case TicketHoldNotFound => 404
      case ServerError => 500
      case Linked(_, _, _, _, _) => 200
    }
  }

  /** A lookup by id that also requires the row to belong to the caller. */
  predicate OwnsDiscountHold(st: State, user: UserId, id: Id) {
    Row(st.discountHolds, id).Some? && st.discountHolds[id - 1].userId == user
  }

  predicate OwnsTicketHold(st: State, user: UserId, id: Id) {
    Row(st.reservations, id).Some? && st.reservations[id - 1].userId == user
  }

  /** `POST /api/discount/reserve` with body
      `{ discountReservationId, ticketReservationId }`. No status or
      already-linked check is made. */
  function LinkHolds(st: State, caller: Option<UserId>, discountId: Option<int>, ticketId: Option<int>): (r: (LinkResponse, State))
    ensures caller.None? ==> r == (AuthenticationRequired, st)
    ensures !r.0.Linked? ==> r.1 == st
    ensures r.0 == MissingDiscountHoldId <==> caller.Some? && Missing(discountId)
    ensures r.0 == MissingTicketHoldId <==> caller.Some? && !Missing(discountId) && Missing(ticketId)
    ensures r.0 == DiscountHoldNotFound <==>
      caller.Some? && !Missing(discountId) && !Missing(ticketId)
      && !OwnsDiscountHold(st, caller.value, discountId.value)
    ensures r.0 == TicketHoldNotFound <==>
      caller.Some? && !Missing(discountId) && !Missing(ticketId)
      && OwnsDiscountHold(st, caller.value, discountId.value)
      && !OwnsTicketHold(st, caller.value, ticketId.value)
    ensures r.0 == ServerError <==>
      caller.Some? && !Missing(discountId) && !Missing(ticketId)
      && OwnsDiscountHold(st, caller.value, discountId.value)
      && OwnsTicketHold(st, caller.value, ticketId.value)
      && Row(st.codes, st.discountHolds[discountId.value - 1].discountCodeId).None?
    ensures r.0.Linked? <==>
      caller.Some? && !Missing(discountId) && !Missing(ticketId)
      && OwnsDiscountHold(st, caller.value, discountId.value)
      && OwnsTicketHold(st, caller.value, ticketId.value)
      && Row(st.codes, st.discountHolds[discountId.value - 1].discountCodeId).Some?
    ensures r.0.Linked? ==>
      && r.0.discountReservationId == discountId.value && r.0.ticketReservationId == ticketId.value
    // only the discount hold's link changes
    ensures r.0.Linked? ==>
      && |r.1.discountHolds| == |st.discountHolds|
      && r.1.discountHolds[discountId.value - 1]
           == st.discountHolds[discountId.value - 1].(ticketReservationId := Some(ticketId.value))
      && (forall j :: 0 <= j < |st.discountHolds| && j != discountId.value - 1 ==> r.1.discountHolds[j] == st.discountHolds[j])
      && r.1 == st.(discountHolds := r.1.discountHolds)
    // the response echoes the code
    ensures r.0.Linked? ==>
      var c := st.discountHolds[discountId.value - 1].discountCodeId;
      && Row(st.codes, c).Some?
      && r.0.code == st.codes[c - 1].code
      && r.0.discountType == st.codes[c - 1].discountType
      && r.0.discountValue == st.codes[c - 1].discountValue
  {
    if caller.None? then (AuthenticationRequired, st)
    else if Missing(discountId) then (MissingDiscountHoldId, st)
    else if Missing(ticketId) then (MissingTicketHoldId, st)
    else if !OwnsDiscountHold(st, caller.value, discountId.value) then (DiscountHoldNotFound, st)
    else
      var d := discountId.value;
      var h := st.discountHolds[d - 1];
      if !OwnsTicketHold(st, caller.value, ticketId.value) then (TicketHoldNotFound, st)
      else match Row(st.codes, h.discountCodeId)
        case None => (ServerError, st)
        case Some(code) =>
          var h' := h.(ticketReservationId := Some(ticketId.value));
          (Linked(d, ticketId.value, code.code, code.discountType, code.discountValue),
           st.(discountHolds := st.discountHolds[d - 1 := h']))
  }

  /** Linking again overwrites the earlier link: the hold ends up linked to
      the second ticket hold. */
  lemma RelinkOverwrites(st: State, user: UserId, d: Id, t1: Id, t2: Id)
    requires LinkHolds(st, Some(user), Some(d), Some(t1)).0.Linked?
    requires OwnsTicketHold(st, user, t2) && t2 != 0
    ensures var once := LinkHolds(st, Some(user), Some(d), Some(t1)).1;
      var twice := LinkHolds(once, Some(user), Some(d), Some(t2));
      twice.0.Linked? && twice.1.discountHolds[d - 1].ticketReservationId == Some(t2)
  {
  }
}

=== FILE: discount_release.dfy ===
/** src/app/api/discount/release/route.ts: cancelling a PENDING discount hold,
    and the route that checks the caller owns the hold before doing so. The
    statistics it reads and logs afterwards change nothing and are left out. */
module DiscountRelease {
  import opened Wrappers
  import opened Db

  /** `releaseDiscountReservation(id)`: true when a PENDING hold was cancelled;
      false, with no change, when the hold is missing or not PENDING. */
  function ReleaseDiscountReservation(st: State, id: Id): (r: (bool, State))
    ensures !r.0 ==> r.1 == st
    ensures r.0 <==> Row(st.discountHolds, id).Some? && st.discountHolds[id - 1].status == Pending
    ensures r.0 ==>
      && |r.1.discountHolds| == |st.discountHolds|
      && r.1.discountHolds[id - 1] == st.discountHolds[id - 1].(status := Cancelled)
      && (forall j :: 0 <= j < |st.discountHolds| && j != id - 1 ==> r.1.discountHolds[j] == st.discountHolds[j])
      && r.1 == st.(discountHolds := r.1.discountHolds)
    ensures r.1.codes == st.codes
  {
    match Row(st.discountHolds, id)
    case None => (false, st)
    case Some(h) =>
      if h.status != Pending then (false, st)
      else (true, st.(discountHolds := st.discountHolds[id - 1 := h.(status := Cancelled)]))
  }

  /** Release is idempotent: the second release of the same hold reports false
      and changes nothing. */
  lemma ReleaseIdempotent(st: State, id: Id)
    ensures var first := ReleaseDiscountReservation(st, id);
      ReleaseDiscountReservation(first.1, id) == (false, first.1)
  {
  }

  datatype ReleaseResponse =
    | AuthenticationRequired
    | MissingId
    | NotFound
    | NotOwner
    /** Always 200: `released` says whether the status became CANCELLED
        ("CANCELLED") or was left as it was ("NOT_MODIFIED"). */
    | Processed(released: bool)
  {
    function Status(): int {
      match this
      case AuthenticationRequired => 401
      case MissingId => 400
      case NotFound => 404
      case NotOwner => 403
      case Processed(_) => 200
    }

    function ReservationStatus(): string
      requires Processed?
    {
      if released then "CANCELLED" else "NOT_MODIFIED"
    }
  }

  /** `POST /api/discount/release` with body `{ discountReservationId }`. */
  function ReleasePost(st: State, caller: Option<UserId>, id: Option<int>): (r: (ReleaseResponse, State))
    ensures caller.None? ==> r == (AuthenticationRequired, st)
    ensures !r.0.Processed? ==> r.1 == st
    ensures r.0 == MissingId <==> caller.Some? && Missing(id)
    ensures r.0 == NotFound <==> caller.Some? && !Missing(id) && Row(st.discountHolds, id.value).None?
    ensures r.0 == NotOwner <==>
      caller.Some? && !Missing(id) && Row(st.discountHolds, id.value).Some?
      && st.discountHolds[id.value - 1].userId != caller.value
    ensures r.0.Processed? ==>
      && caller.Some? && !Missing(id) && Row(st.discountHolds, id.value).Some?
      && st.discountHolds[id.value - 1].userId == caller.value
      && (r.0.released <==> st.discountHolds[id.value - 1].status == Pending)
      && r == (Processed(r.0.released), ReleaseDiscountReservation(st, id.value).1)
  {
    if caller.None? then (AuthenticationRequired, st)
    else if Missing(id) then (MissingId, st)
    else match Row(st.discountHolds, id.value)
      case None => (NotFound, st)
      case Some(h) =>
        if h.userId != caller.value then (NotOwner, st)
        else
          var (released, st') := ReleaseDiscountReservation(st, id.value);
          (Processed(released), st')
  }
}

=== FILE: discount_validate.dfy ===
/** src/app/api/discount/validate/route.ts: is a discount code usable for an
    event right now. The usage and date rules here are the same ones checkout
    applies before it counts a use. */
module DiscountValidate {
  import opened Wrappers
  import opened Seqs
  import opened Db

  /** Why an existing code cannot be used, in the order the checks run. */
  datatype CodeProblem = MaxUsesReached | NotYetActive | CodeExpired

  /** A null maxUses never limits use. */
  predicate UsesLeft(c: DiscountCode) {
    c.maxUses.None? || c.currentUses < c.maxUses.value
  }

  /** Both ends of the validity window are valid instants; a null end is no bound. */
  predicate InWindow(c: DiscountCode, now: Time) {
    && (c.startDate.None? || c.startDate.value <= now)
    && (c.endDate.None? || now <= c.endDate.value)
  }

  /** The first failing check on a code at time `now`: usage before start
      date before end date. */
  function CodeProblemAt(c: DiscountCode, now: Time): (p: Option<CodeProblem>)
    ensures p.None? <==> UsesLeft(c) && InWindow(c, now)
    ensures p == Some(MaxUsesReached) <==> !UsesLeft(c)
    ensures p == Some(NotYetActive) <==> UsesLeft(c) && c.startDate.Some? && now < c.startDate.value
    ensures p == Some(CodeExpired) <==>
      UsesLeft(c) && (c.startDate.None? || c.startDate.value <= now) && c.endDate.Some? && now > c.endDate.value
  {
    if c.maxUses.Some? && c.currentUses >= c.maxUses.value then Some(MaxUsesReached)
    else if c.startDate.Some? && now < c.startDate.value then Some(NotYetActive)
    else if c.endDate.Some? && now > c.endDate.value then Some(CodeExpired)
    else None
  }

  predicate CodeMatches(c: DiscountCode, code: string, eventId: int) {
    c.code == code && c.eventId == eventId
  }

  /** `discountCode.findFirst({ where: { code, eventId } })`: the id of the
      first code with that text for that event. */
  function FindCode(codes: seq<DiscountCode>, code: string, eventId: int): (r: Option<Id>)
    ensures r.Some? ==> 1 <= r.value <= |codes| && CodeMatches(codes[r.value - 1], code, eventId)
    ensures r.Some? ==> forall j :: 0 <= j < r.value - 1 ==> !CodeMatches(codes[j], code, eventId)
    ensures r.None? <==> forall j :: 0 <= j < |codes| ==> !CodeMatches(codes[j], code, eventId)
  {
    match FirstIndex(codes, (c: DiscountCode) => CodeMatches(c, code, eventId))
    case None => None
    case Some(i) => Some(i + 1)
  }

  datatype ValidateResponse =
    | MissingFields
    | UnknownCode
    | Rejected(problem: CodeProblem)
    | Valid(discountType: DiscountType, discountValue: real)
  {
    function Status(): int {
      match this
      case MissingFields => 400
      case UnknownCode => 404
      case Rejected(_) => 400
      case Valid(_, _) => 200
    }
  }

  /** `POST /api/discount/validate` with body `{ code, eventId }`. It only reads
      the state, so it returns no new one. */
  function ValidateCode(st: State, now: Time, code: string, eventId: Option<int>): (r: ValidateResponse)
    ensures r == MissingFields <==> code == "" || Missing(eventId)
    ensures r == UnknownCode <==>
      code != "" && !Missing(eventId) && FindCode(st.codes, code, eventId.value).None?
    ensures r.Rejected? <==>
      && code != "" && !Missing(eventId) && FindCode(st.codes, code, eventId.value).Some?
      && CodeProblemAt(st.codes[FindCode(st.codes, code, eventId.value).value - 1], now).Some?
    ensures r.Rejected? ==>
      r.problem == CodeProblemAt(st.codes[FindCode(st.codes, code, eventId.value).value - 1], now).value
    ensures r.Valid? ==>
      exists i :: 0 <= i < |st.codes| && CodeMatches(st.codes[i], code, eventId.value)
        && UsesLeft(st.codes[i]) && InWindow(st.codes[i], now)
        && r == Valid(st.codes[i].discountType, st.codes[i].discountValue)
    // and that code is the first match, the row `findFirst` returns
    ensures r.Valid? ==>
      && FindCode(st.codes, code, eventId.value).Some?
      && var c := st.codes[FindCode(st.codes, code, eventId.value).value - 1];
      && CodeProblemAt(c, now).None?
      && r == Valid(c.discountType, c.discountValue)
  {
    if code == "" || Missing(eventId) then MissingFields
    else match FindCode(st.codes, code, eventId.value)
      case None => UnknownCode
      case Some(id) =>
        var c := st.codes[id - 1];
        match CodeProblemAt(c, now)
        case Some(p) => Rejected(p)
        case None => Valid(c.discountType, c.discountValue)
  }

  /** The usage check comes first: a used-up code is reported as such even
      outside its window. */
  lemma UsageCheckedBeforeDates(st: State, now: Time, code: string, eventId: int)
    requires code != "" && eventId != 0
    requires FindCode(st.codes, code, eventId).Some?
    requires !UsesLeft(st.codes[FindCode(st.codes, code, eventId).value - 1])
    ensures ValidateCode(st, now, code, Some(eventId)) == Rejected(MaxUsesReached)
  {
  }
}

=== FILE: event_form.dfy ===
/** src/components/EventForm.tsx: the editable lists of ticket tiers and
    discount codes behind the event form. */
module EventForm {
  import opened Wrappers
  import opened Seqs
  import opened Db

  /** A tier row; every field is the text typed into its input. */
  datatype TierRow = TierRow(name: string, price: string, quantity: string)

  const EmptyTier := TierRow("", "", "")

  /** A discount-code row: `id` is the random key given when it is added. */
  datatype CodeRow = CodeRow(
    id: string, code: string, discountType: DiscountType, discountValue: string,
    maxUses: string, startDate: string, endDate: string)

  datatype Form = Form(tiers: seq<TierRow>, showDiscountSection: bool, discountCodes: seq<CodeRow>)

  /** The form starts with one empty tier and no discount codes, the code
      section hidden. */
  const Initial := Form([EmptyTier], false, [])

  /** `addTier`. */
  function AddTier(f: Form): (r: Form)
    ensures |r.tiers| == |f.tiers| + 1 && r.tiers[..|f.tiers|] == f.tiers && r.tiers[|f.tiers|] == EmptyTier
    ensures r.showDiscountSection == f.showDiscountSection && r.discountCodes == f.discountCodes
  {
    f.(tiers := f.tiers + [EmptyTier])
  }

  /** `removeTier(index)`: drops that row, but only while more than one is left;
      an index outside the list removes nothing. */
  function RemoveTier(f: Form, index: int): (r: Form)
    ensures |f.tiers| > 1 && 0 <= index < |f.tiers| ==> r.tiers == f.tiers[..index] + f.tiers[index + 1..]
    ensures |f.tiers| <= 1 || index < 0 || index >= |f.tiers| ==> r.tiers == f.tiers
    ensures r.showDiscountSection == f.showDiscountSection && r.discountCodes == f.discountCodes
  {
    if |f.tiers| > 1 then f.(tiers := DropIndex(f.tiers, index)) else f
  }

  /** `tiers.filter((_, i) => i !== index)`: every element whose position is
      not `index`, in order. */
  function DropIndex<T>(s: seq<T>, index: int): (r: seq<T>)
    ensures 0 <= index < |s| ==>
      && |r| == |s| - 1
      && forall j :: 0 <= j < |r| ==> r[j] == if j < index then s[j] else s[j + 1]
    ensures index < 0 || index >= |s| ==> r == s
  {
    if 0 <= index < |s| then s[..index] + s[index + 1..] else s
  }

  /** `addDiscountCode`, with `id` standing for the random key. */
  function AddDiscountCode(f: Form, id: string): (r: Form)
    ensures r.discountCodes == f.discountCodes + [CodeRow(id, "", Percentage, "", "", "", "")]
    ensures r.tiers == f.tiers && r.showDiscountSection == f.showDiscountSection
  {
    f.(discountCodes := f.discountCodes + [CodeRow(id, "", Percentage, "", "", "", "")])
  }

  /** `removeDiscountCode(id)`: drops every row with that id, and hides the
      section once none is left. */
  function RemoveDiscountCode(f: Form, id: string): (r: Form)
    ensures forall c :: c in r.discountCodes <==> c in f.discountCodes && c.id != id
    ensures IsSubsequence(r.discountCodes, f.discountCodes)
    ensures forall c :: multiset(r.discountCodes)[c] == if c.id != id then multiset(f.discountCodes)[c] else 0
    ensures r.showDiscountSection == (f.showDiscountSection && r.discountCodes != [])
    ensures r.tiers == f.tiers
  {
    var codes := Filter(f.discountCodes, (c: CodeRow) => c.id != id);
    f.(discountCodes := codes, showDiscountSection := if codes == [] then false else f.showDiscountSection)
  }

  /** The "Add Discount Code" button: show the section, and add a first row
      only when there is none. */
  function AddDiscountCodeButton(f: Form, id: string): (r: Form)
    ensures r.showDiscountSection && r.tiers == f.tiers
    ensures f.discountCodes == [] ==> r.discountCodes == [CodeRow(id, "", Percentage, "", "", "", "")]
    ensures f.discountCodes != [] ==> r.discountCodes == f.discountCodes
  {
    var shown := f.(showDiscountSection := true);
    if f.discountCodes == [] then AddDiscountCode(shown, id) else shown
  }

  /** What every reachable form satisfies: at least one tier, and a shown
      code section is never empty. */
  predicate WellFormed(f: Form) {
    |f.tiers| >= 1 && (f.showDiscountSection ==> f.discountCodes != [])
  }

  datatype Edit = AddTierEdit | RemoveTierEdit(index: int) | AddCodeEdit(id: string)
                | RemoveCodeEdit(id: string) | AddCodeButton(id: string)

  /** One edit of the form. */
  function Apply(f: Form, e: Edit): Form {
    match e
    case AddTierEdit => AddTier(f)
    case RemoveTierEdit(i) => RemoveTier(f, i)
    case AddCodeEdit(id) => AddDiscountCode(f, id)
    case RemoveCodeEdit(id) => RemoveDiscountCode(f, id)
    case AddCodeButton(id) => AddDiscountCodeButton(f, id)
  }

  function ApplyAll(f: Form, edits: seq<Edit>): Form
    decreases |edits|
  {
    if |edits| == 0 then f else ApplyAll(Apply(f, edits[0]), edits[1..])
  }

  /** Every edit keeps the form well formed, */
  lemma ApplyKeepsWellFormed(f: Form, e: Edit)
    requires WellFormed(f)
    ensures WellFormed(Apply(f, e))
  {
    if e.RemoveTierEdit? && |f.tiers| > 1 && 0 <= e.index < |f.tiers| {
      assert |f.tiers[..e.index] + f.tiers[e.index + 1..]| == |f.tiers| - 1;
    }
  }

  /** so the tier list is never empty and a shown section always has a row,
      after any sequence of edits from the initial form. */
  lemma {:induction false} ReachableWellFormed(f: Form, edits: seq<Edit>)
    requires WellFormed(f)
    ensures WellFormed(ApplyAll(f, edits))
    decreases |edits|
  {
    if |edits| > 0 {
      ApplyKeepsWellFormed(f, edits[0]);
      ReachableWellFormed(Apply(f, edits[0]), edits[1..]);
    }
  }

  lemma InitialWellFormed()
    ensures WellFormed(Initial) && |Initial.tiers| == 1 && Initial.discountCodes == []
  {
  }
}

=== FILE: flows.dfy ===
/** How the handlers answer one another: what one route writes, another
    route reads back. */
module Flows {
  import opened Wrappers
  import opened Text
  import opened Db
  import opened DiscountValidate
  import opened DiscountRelease
  import opened DiscountCheck
  import opened Orders
  import opened Waitlist
  import opened Registrations
  import opened CheckIn

  /** After a successful join, the check route, given the tier id as the
      decimal text a client sends, reports the caller as joined. */
  lemma JoinThenCheck(st: State, user: UserId, tierId: Id, quantity: int)
    requires JoinWaitlist(st, Some(user), tierId, quantity).0.Joined?
    ensures WaitlistCheck(JoinWaitlist(st, Some(user), tierId, quantity).1, Some(user), Some(IntToString(tierId)))
  {
    var after := JoinWaitlist(st, Some(user), tierId, quantity).1;
    ParseIntOfIntToString(tierId, Decimal);
    assert ActiveEntry(after.waitlist[|st.waitlist|], user, tierId);
  }

  /** Checkout applies the validation route's rules to a code: for a good
      hold on an existing tier, a checkout naming a code succeeds exactly
      when the validation route would call that code valid. */
  lemma CheckoutAgreesWithValidate(st: State, now: Time, user: UserId, req: CheckoutRequest)
    requires HoldMatches(st, user, req) && now <= st.reservations[req.reservationId - 1].expiresAt
    requires Row(st.tiers, req.tierId).Some?
    requires req.discountCode != "" && req.eventId != 0
    ensures Checkout(st, now, Some(user), req).0.Created?
        <==> ValidateCode(st, now, req.discountCode, Some(req.eventId)).Valid?
  {
  }

  /** A released discount hold is never again reported live by the check
      route, whoever asks and whenever. */
  lemma ReleasedHoldNotLive(st: State, id: Id, now: Time, caller: Option<UserId>, codeId: Option<int>)
    requires ReleaseDiscountReservation(st, id).0
    ensures var r := CheckHold(ReleaseDiscountReservation(st, id).1, now, caller, codeId);
      r.Valid? ==> r.discountReservationId != id
  {
    var after := ReleaseDiscountReservation(st, id).1;
    assert after.discountHolds[id - 1].status == Cancelled;
  }

  /** The registration just created can be checked in with its token, once. */
  lemma RegisterThenCheckIn(st: State, now: Time, later: Time, orderId: int)
    requires CreateRegistration(st, now, orderId).0 == Registered
    ensures var reg := CreateRegistration(st, now, orderId).1;
      var first := CheckInToken(reg, later, TokenOf(orderId));
      && first.0.CheckedIn?
      && first.1.registrations[|st.registrations|].checkedIn
      && CheckInToken(first.1, later, TokenOf(orderId)).0 == AlreadyCheckedIn
  {
    var reg := CreateRegistration(st, now, orderId).1;
    var token := TokenOf(orderId);
    var n := |st.registrations|;
    assert FindToken(reg.registrations, token) == Some(n) by {
      forall j | 0 <= j < n
        ensures reg.registrations[j].qrCodeToken != token
      {
        assert reg.registrations[j] == st.registrations[j];
      }
    }
    CheckInAtMostOnce(reg, later, later, token);
  }
}

=== FILE: invite.dfy ===
/** src/components/InviteStaffList.tsx: the case-insensitive e-mail search
    over the users that can be invited, and the checkbox defaults. */
module InviteStaff {
  import opened Wrappers
  import opened Seqs
  import opened Text

  /** A user row; a null e-mail is None. */
  datatype User = User(id: string, name: Option<string>, email: Option<string>)

  /** `(u.email || "").toLowerCase().includes(query.toLowerCase())`. */
  predicate Matches(u: User, query: string) {
    Contains(ToLower(u.email.GetOr("")), ToLower(query))
  }

  /** `allUsers.filter(...)`: the matching users, in their original order. */
  function FilterUsers(users: seq<User>, query: string): (r: seq<User>)
    ensures forall u :: u in r <==> u in users && Matches(u, query)
    ensures IsSubsequence(r, users)
    ensures forall u :: multiset(r)[u] == if Matches(u, query) then multiset(users)[u] else 0
  {
    Filter(users, (u: User) => Matches(u, query))
  }

  /** An empty query keeps every user. */
  lemma EmptyQueryKeepsAll(users: seq<User>)
    ensures FilterUsers(users, "") == users
  {
    forall u | u in users ensures Matches(u, "") {
      ContainsEmpty(ToLower(u.email.GetOr("")));
    }
    FilterAll(users, (u: User) => Matches(u, ""));
  }

  /** The search ignores the case of the query: an upper-case query finds
      the same users as its lower-case form. */
  lemma QueryCaseIgnored(users: seq<User>, query: string)
    ensures FilterUsers(users, ToLower(query)) == FilterUsers(users, query)
  {
    ToLowerIdempotent(query);
    FilterSame(users, (u: User) => Matches(u, ToLower(query)), (u: User) => Matches(u, query));
  }

  /** The search ignores the case of the e-mail address too. */
  lemma EmailCaseIgnored(u: User, query: string)
    requires u.email.Some?
    ensures Matches(u.(email := Some(ToLower(u.email.value))), query) == Matches(u, query)
  {
    ToLowerIdempotent(u.email.value);
  }

  /** `defaultChecked={invitedUserIds.includes(u.id)}`. */
  function DefaultChecked(u: User, invitedUserIds: seq<string>): (checked: bool)
    ensures checked <==> exists i :: 0 <= i < |invitedUserIds| && invitedUserIds[i] == u.id
  {
    u.id in invitedUserIds
  }
}

=== FILE: middleware.dfy ===
/** middleware.ts: the access decision for a request path, as a function of
    the path and the signed-in user. Prefixes are matched as plain string
    prefixes, so "/users" and "/staffing" fall under "/user" and "/staff". */
module Middleware {
  import opened Wrappers
  import opened Text

  /** The session's user: its id and role. */
  datatype User = User(id: string, role: string)

  datatype Decision = Next | RedirectSignIn | RedirectUnauthorized

  /** The six prefixes that need a signed-in user. */
  predicate Protected(path: string) {
    || StartsWith(path, "/dashboard") || StartsWith(path, "/organizer") || StartsWith(path, "/staff")
    || StartsWith(path, "/tickets") || StartsWith(path, "/events") || StartsWith(path, "/user")
  }

  /** `user?.role !== r`: true also when there is no user. */
  predicate RoleIsNot(user: Option<User>, r: string) {
    user.None? || user.value.role != r
  }

  /** `user?.id !== pathname.split("/")[2]`; a missing segment is `undefined`,
      which no id equals. */
  predicate NotPathOwner(path: string, user: Option<User>) {
    user.None? || Field(path, '/', 2) != Some(user.value.id)
  }

  /** The role rules, each a redirect to /unauthorized. */
  predicate RoleRefuses(path: string, user: Option<User>) {
    || (StartsWith(path, "/dashboard") && RoleIsNot(user, "organizer") && RoleIsNot(user, "staff"))
    || (StartsWith(path, "/organizer") && RoleIsNot(user, "organizer"))
    || (StartsWith(path, "/staff") && RoleIsNot(user, "staff"))
    || (StartsWith(path, "/user") && NotPathOwner(path, user))
  }

  /** `middleware(req)`. */
  function Decide(path: string, user: Option<User>): (d: Decision)
    // the sign-in rule comes before every role rule
    ensures d == RedirectSignIn <==> Protected(path) && user.None?
    ensures d == RedirectUnauthorized <==> !(Protected(path) && user.None?) && RoleRefuses(path, user)
    ensures d == Next <==> !(Protected(path) && user.None?) && !RoleRefuses(path, user)
    // a request outside the protected prefixes always passes
    ensures !Protected(path) ==> d == Next
  {
    if Protected(path) && user.None? then RedirectSignIn
    else if StartsWith(path, "/dashboard") && RoleIsNot(user, "organizer") && RoleIsNot(user, "staff") then
      RedirectUnauthorized
    else if StartsWith(path, "/organizer") && RoleIsNot(user, "organizer") then RedirectUnauthorized
    else if StartsWith(path, "/staff") && RoleIsNot(user, "staff") then RedirectUnauthorized
    else if StartsWith(path, "/user") && NotPathOwner(path, user) then RedirectUnauthorized
    else Next
  }

  /** Without a user, even /dashboard is sent to sign in, not refused. */
  lemma SignInBeforeRoles(rest: string)
    ensures Decide("/dashboard" + rest, None) == RedirectSignIn
  {
    assert ("/dashboard" + rest)[..10] == "/dashboard";
  }

  /** Plain prefix matching: "/staffing" is under the staff-only rule. */
  lemma StaffingIsStaffOnly(u: User)
    requires u.role != "staff"
    ensures Decide("/staffing", Some(u)) == RedirectUnauthorized
  {
    assert "/staffing"[..6] == "/staff";
  }

  /** A user's own page /user/<id> is allowed, whatever the role; anyone
      else's is refused. */
  lemma OwnUserPage(id: string, u: User)
    requires '/' !in id
    ensures Decide("/user/" + id, Some(u)) == if u.id == id then Next else RedirectUnauthorized
  {
    var path := "/user/" + id;
    var parts := ["", "user", id];
    assert parts[1..] == ["user", id] && parts[1..][1..] == [id];
    assert Join(parts[1..][1..], '/') == id;
    assert Join(parts[1..], '/') == "user" + ['/'] + id;
    assert Join(parts, '/') == "" + ['/'] + ("user" + ['/'] + id);
    assert "" + ['/'] + ("user" + ['/'] + id) == path;
    SplitJoin(parts, '/');
    assert Field(path, '/', 2) == Some(id);
    assert path[..5] == "/user";
    assert !StartsWith(path, "/dashboard") by { assert path[1] == 'u'; }
    assert !StartsWith(path, "/organizer") by { assert path[1] == 'u'; }
    assert !StartsWith(path, "/staff") by { assert path[1] == 'u'; }
  }
}

=== FILE: orders.dfy ===
/** src/app/api/orders/route.ts: checkout finalisation. It checks the caller's
    hold and the optional discount code, then in one transaction creates a
    CONFIRMED order, lowers the tier's stock and completes the hold; the
    discount code's use count is raised afterwards, outside that transaction. */
module Orders {
  import opened Wrappers
  import opened Db
  import opened DiscountValidate

  /** The request body after `parseInt`/`parseFloat`; an empty `discountCode`
      stands for an absent one. */
  datatype CheckoutRequest = CheckoutRequest(
    eventId: int, tierId: int, quantity: int, totalAmount: real,
    discountCode: string, reservationId: int)

  datatype CheckoutResponse =
    | Unauthorized
    | InvalidReservation
    | ReservationExpired
    | InvalidDiscountCode
    | DiscountRejected(problem: CodeProblem)
    | ServerError
    | Created(orderId: Id, remainingTickets: int)
  {
    function Status(): int {
      match this
      case Unauthorized => 401
      case ServerError => 500
      case Created(_, _) => 200
      case _ => 400
    }
  }

  /** The hold lookup succeeds: the id names the caller's PENDING hold, and it
      is for the requested tier and quantity. */
  predicate HoldMatches(st: State, user: UserId, req: CheckoutRequest) {
    && Row(st.reservations, req.reservationId).Some?
    && var h := st.reservations[req.reservationId - 1];
    && h.userId == user && h.status == Pending
    && h.tierId == req.tierId && h.quantity == req.quantity
  }

  /** The discount code named in the request, if one was given and exists. */
  function RequestedCode(st: State, req: CheckoutRequest): Option<Id> {
    if req.discountCode == "" then None else FindCode(st.codes, req.discountCode, req.eventId)
  }

  /** Signed in, with the caller's matching hold not yet expired. */
  predicate HoldLive(st: State, now: Time, caller: Option<UserId>, req: CheckoutRequest) {
    && caller.Some? && HoldMatches(st, caller.value, req)
    && now <= st.reservations[req.reservationId - 1].expiresAt
  }

  /** No code was named, or the named code exists and passes its checks. */
  predicate CodeAccepted(st: State, now: Time, req: CheckoutRequest) {
    req.discountCode != "" ==>
      RequestedCode(st, req).Some? && CodeProblemAt(st.codes[RequestedCode(st, req).value - 1], now).None?
  }

  /** `POST /api/orders` by `caller` at time `now`. */
  function Checkout(st: State, now: Time, caller: Option<UserId>, req: CheckoutRequest): (r: (CheckoutResponse, State))
    ensures caller.None? ==> r == (Unauthorized, st)
    ensures !r.0.Created? ==> r.1 == st
    ensures r.0 == InvalidReservation <==> caller.Some? && !HoldMatches(st, caller.value, req)
    ensures r.0 == ReservationExpired <==>
      caller.Some? && HoldMatches(st, caller.value, req) && now > st.reservations[req.reservationId - 1].expiresAt
    ensures r.0 == InvalidDiscountCode <==>
      && HoldLive(st, now, caller, req)
      && req.discountCode != "" && FindCode(st.codes, req.discountCode, req.eventId).None?
    ensures r.0.DiscountRejected? <==>
      && HoldLive(st, now, caller, req)
      && RequestedCode(st, req).Some? && CodeProblemAt(st.codes[RequestedCode(st, req).value - 1], now).Some?
    ensures r.0.DiscountRejected? ==>
      CodeProblemAt(st.codes[RequestedCode(st, req).value - 1], now) == Some(r.0.problem)
    // a request passing every check is answered 200, unless its tier is gone
    ensures r.0 == ServerError <==>
      HoldLive(st, now, caller, req) && CodeAccepted(st, now, req) && Row(st.tiers, req.tierId).None?
    ensures r.0.Created? <==>
      HoldLive(st, now, caller, req) && CodeAccepted(st, now, req) && Row(st.tiers, req.tierId).Some?
    // one CONFIRMED order for the caller, tier and quantity
    ensures r.0.Created? ==>
      && r.0.orderId == |st.orders| + 1
      && r.1.orders == st.orders + [Order(caller.value, req.eventId, req.tierId, req.quantity, req.totalAmount,
                                          Confirmed, RequestedCode(st, req), now)]
    // the tier's stock drops by exactly the quantity, and the response reports it
    ensures r.0.Created? ==>
      && |r.1.tiers| == |st.tiers|
      && r.1.tiers[req.tierId - 1] == st.tiers[req.tierId - 1].(quantity := st.tiers[req.tierId - 1].quantity - req.quantity)
      && (forall t :: 0 <= t < |st.tiers| && t != req.tierId - 1 ==> r.1.tiers[t] == st.tiers[t])
      && r.0.remainingTickets == r.1.tiers[req.tierId - 1].quantity
    // the hold becomes COMPLETED
    ensures r.0.Created? ==>
      && |r.1.reservations| == |st.reservations|
      && r.1.reservations[req.reservationId - 1] == st.reservations[req.reservationId - 1].(status := Completed)
      && (forall i :: 0 <= i < |st.reservations| && i != req.reservationId - 1 ==> r.1.reservations[i] == st.reservations[i])
    // a use is counted exactly when a code was given
    ensures r.0.Created? ==>
      && |r.1.codes| == |st.codes|
      && (forall i :: 0 <= i < |st.codes| ==>
            r.1.codes[i] == st.codes[i].(currentUses := st.codes[i].currentUses
                                           + if RequestedCode(st, req) == Some(i + 1) then 1 else 0))
      && (req.discountCode != "" <==> RequestedCode(st, req).Some?)
    ensures r.1.discountHolds == st.discountHolds && r.1.waitlist == st.waitlist
      && r.1.registrations == st.registrations
  {
    if caller.None? then (Unauthorized, st)
    else if !HoldMatches(st, caller.value, req) then (InvalidReservation, st)
    else
      var hold := st.reservations[req.reservationId - 1];
      if now > hold.expiresAt then (ReservationExpired, st)
      else
        var codeId := RequestedCode(st, req);
        if req.discountCode != "" && codeId.None? then (InvalidDiscountCode, st)
        else if codeId.Some? && CodeProblemAt(st.codes[codeId.value - 1], now).Some? then
          (DiscountRejected(CodeProblemAt(st.codes[codeId.value - 1], now).value), st)
        else if Row(st.tiers, req.tierId).None? then (ServerError, st)
        else
          var st' := Finalize(st, now, caller.value, req, codeId);
          (Created(|st.orders| + 1, st'.tiers[req.tierId - 1].quantity), st')
  }

  /** The writes of a checkout that passed its checks: the transaction's
      order, stock and hold updates, then the use count of the code, if any. */
  function Finalize(st: State, now: Time, user: UserId, req: CheckoutRequest, codeId: Option<Id>): (st': State)
    requires 1 <= req.tierId <= |st.tiers| && 1 <= req.reservationId <= |st.reservations|
    requires codeId.Some? ==> 1 <= codeId.value <= |st.codes|
    ensures st'.orders == st.orders + [Order(user, req.eventId, req.tierId, req.quantity, req.totalAmount,
                                             Confirmed, codeId, now)]
    ensures |st'.tiers| == |st.tiers|
      && st'.tiers[req.tierId - 1] == st.tiers[req.tierId - 1].(quantity := st.tiers[req.tierId - 1].quantity - req.quantity)
      && (forall t :: 0 <= t < |st.tiers| && t != req.tierId - 1 ==> st'.tiers[t] == st.tiers[t])
    ensures |st'.reservations| == |st.reservations|
      && st'.reservations[req.reservationId - 1] == st.reservations[req.reservationId - 1].(status := Completed)
      && (forall i :: 0 <= i < |st.reservations| && i != req.reservationId - 1 ==> st'.reservations[i] == st.reservations[i])
    ensures |st'.codes| == |st.codes|
      && (forall i :: 0 <= i < |st.codes| ==>
            st'.codes[i] == st.codes[i].(currentUses := st.codes[i].currentUses + if codeId == Some(i + 1) then 1 else 0))
    ensures st'.discountHolds == st.discountHolds && st'.waitlist == st.waitlist
      && st'.registrations == st.registrations
  {
    var tier := st.tiers[req.tierId - 1];
    var hold := st.reservations[req.reservationId - 1];
    var order := Order(user, req.eventId, req.tierId, req.quantity, req.totalAmount, Confirmed, codeId, now);
    var st1 := st.(
      orders := st.orders + [order],
      tiers := st.tiers[req.tierId - 1 := tier.(quantity := tier.quantity - req.quantity)],
      reservations := st.reservations[req.reservationId - 1 := hold.(status := Completed)]);
    match codeId
    case None => st1
    case Some(c) => st1.(codes := st1.codes[c - 1 := st1.codes[c - 1].(currentUses := st1.codes[c - 1].currentUses + 1)])
  }

  /** Finalisation is not repeatable: once a hold is completed, the same
      request fails as an invalid reservation, at any later time. */
  lemma CheckoutNotRepeatable(st: State, now: Time, later: Time, caller: Option<UserId>, req: CheckoutRequest)
    requires Checkout(st, now, caller, req).0.Created?
    ensures Checkout(Checkout(st, now, caller, req).1, later, caller, req) == (InvalidReservation, Checkout(st, now, caller, req).1)
  {
    var st' := Checkout(st, now, caller, req).1;
    assert st'.reservations[req.reservationId - 1].status == Completed;
  }

  /** A hold is still accepted at exactly its expiry instant. */
  lemma AcceptedAtExpiryInstant(st: State, user: UserId, req: CheckoutRequest)
    requires HoldMatches(st, user, req) && req.discountCode == "" && Row(st.tiers, req.tierId).Some?
    ensures Checkout(st, st.reservations[req.reservationId - 1].expiresAt, Some(user), req).0.Created?
  {
  }
}

=== FILE: payment.dfy ===
/** src/app/api/payment/validate/route.ts: the card-field validator. All four
    checks run, and every failing field gets its own message. */
module Payment {
  import opened Wrappers
  import opened Text

  /** The JSON body; an absent field is None. */
  datatype PaymentData = PaymentData(
    cardholderName: Option<string>, cardNumber: Option<string>,
    expiryDate: Option<string>, cvv: Option<string>)

  datatype CardField = CardholderName | CardNumber | ExpiryDate | Cvv

  /** `!data.cardholderName?.trim()` fails: the name is absent or blank. */
  predicate NameOk(name: Option<string>) {
    name.Some? && Trim(name.value) != []
  }

  /** `/^\d{16}$/` on the number with all white space removed. An absent
      number is tested as the text "undefined" and fails. */
  predicate CardNumberOk(number: Option<string>) {
    number.Some? && |StripSpaces(number.value)| == 16 && AllDigits(StripSpaces(number.value))
  }

  /** `/^(0[1-9]|1[0-2])\/\d{2}$/`: a month 01 to 12, a slash, two digits. */
  predicate ExpiryFormatOk(s: string) {
    && |s| == 5 && s[2] == '/' && IsDigit(s[3]) && IsDigit(s[4])
    && ((s[0] == '0' && '1' <= s[1] <= '9') || (s[0] == '1' && '0' <= s[1] <= '2'))
  }

  /** `/^\d{3,4}$/`. */
  predicate CvvOk(cvv: Option<string>) {
    cvv.Some? && 3 <= |cvv.value| <= 4 && AllDigits(cvv.value)
  }

  /** JavaScript's `%`, which truncates toward zero. */
  function JsRem(a: int, b: int): (r: int)
    requires b > 0
    ensures a >= 0 ==> 0 <= r < b
    ensures a < 0 ==> -b < r <= 0
  {
    if a >= 0 then a % b else -((-a) % b)
  }

  /** `x < y` where x is the result of `parseInt`: NaN compares false. */
  predicate JsLess(x: JsInt, y: int) {
    x.Int? && x.value < y
  }

  predicate JsEquals(x: JsInt, y: int) {
    x.Int? && x.value == y
  }

  /** `const [month, year] = expiryDate.split('/')`, each read by `parseInt`;
      a missing year is `undefined`, which reads as NaN. */
  function ExpiryMonth(s: string): JsInt {
    ParseInt(Split(s, '/')[0], Auto)
  }

  function ExpiryYear(s: string): JsInt {
    match Field(s, '/', 1)
    case None => NaN
    case Some(year) => ParseInt(year, Auto)
  }

  /** The expiry comparison against the clock: `fullYear` is
      `getFullYear()` and `month` is `getMonth() + 1`. */
  predicate CardExpired(s: string, fullYear: int, month: int) {
    var expMonth, expYear := ExpiryMonth(s), ExpiryYear(s);
    var currentYear := JsRem(fullYear, 100);
    JsLess(expYear, currentYear) || (JsEquals(expYear, currentYear) && JsLess(expMonth, month))
  }

  /** The error map: one entry per failing field, with the route's message. */
  function PaymentErrors(data: PaymentData, fullYear: int, month: int): (errors: map<CardField, string>)
    ensures CardholderName in errors <==> !NameOk(data.cardholderName)
    ensures CardNumber in errors <==> !CardNumberOk(data.cardNumber)
    ensures Cvv in errors <==> !CvvOk(data.cvv)
    ensures ExpiryDate in errors <==>
      !(data.expiryDate.Some? && ExpiryFormatOk(data.expiryDate.value))
      || CardExpired(data.expiryDate.value, fullYear, month)
    ensures ExpiryDate in errors ==>
      errors[ExpiryDate] == if data.expiryDate.Some? && ExpiryFormatOk(data.expiryDate.value)
                            then "Card has expired" else "Invalid expiry date format (MM/YY)"
  {
    var e0: map<CardField, string> := map[];
    var e1 := if NameOk(data.cardholderName) then e0
              else e0[CardholderName := "Cardholder name is required"];
    var e2 := if CardNumberOk(data.cardNumber) then e1
              else e1[CardNumber := "Card number must be 16-digit number"];
    var e3 := if !(data.expiryDate.Some? && ExpiryFormatOk(data.expiryDate.value)) then
                e2[ExpiryDate := "Invalid expiry date format (MM/YY)"]
              else if CardExpired(data.expiryDate.value, fullYear, month) then
                e2[ExpiryDate := "Card has expired"]
              else e2;
    if CvvOk(data.cvv) then e3 else e3[Cvv := "CVV must be 3 or 4 digits"]
  }

  datatype PaymentResponse =
    | Unauthorized
    | Rejected(errors: map<CardField, string>)
    | Accepted
  {
    function Status(): int {
      match this
      case Unauthorized => 401
      case Rejected(_) => 400
      case Accepted => 200
    }
  }

  /** `POST /api/payment/validate`: 401 without a session, else 400 with the
      error map when it is non-empty, else success. */
  function ValidatePayment(signedIn: bool, data: PaymentData, fullYear: int, month: int): (r: PaymentResponse)
    ensures r == Unauthorized <==> !signedIn
    ensures r.Rejected? ==> r.errors == PaymentErrors(data, fullYear, month) && |r.errors| > 0
    ensures r == Accepted <==>
      && signedIn && NameOk(data.cardholderName) && CardNumberOk(data.cardNumber) && CvvOk(data.cvv)
      && data.expiryDate.Some? && ExpiryFormatOk(data.expiryDate.value)
      && !CardExpired(data.expiryDate.value, fullYear, month)
  {
    if !signedIn then Unauthorized
    else
      var errors := PaymentErrors(data, fullYear, month);
      if |errors| > 0 then Rejected(errors)
      else
        assert CardholderName !in errors && CardNumber !in errors && ExpiryDate !in errors && Cvv !in errors;
        Accepted
  }

  /** Two digits, with a leading zero below 10. */
  function TwoDigits(n: int): (s: string)
    requires 0 <= n < 100
    ensures |s| == 2 && AllDigits(s) && 10 * DigitOf(s[0]) + DigitOf(s[1]) == n
  {
    [DigitChar(n / 10), DigitChar(n % 10)]
  }

  /** The expiry text for a month and two-digit year. */
  function ExpiryText(month: int, yy: int): string
    requires 1 <= month <= 12 && 0 <= yy < 100
  {
    TwoDigits(month) + "/" + TwoDigits(yy)
  }

  /** A well-formed expiry splits at its slash into month and year. */
  lemma SplitWellFormed(s: string)
    requires ExpiryFormatOk(s)
    ensures Split(s, '/') == [s[..2], s[3..]]
  {
    var m, y := s[..2], s[3..];
    assert '/' !in m by { assert m[0] == s[0] && m[1] == s[1]; }
    assert '/' !in y by { assert y[0] == s[3] && y[1] == s[4]; }
    var parts := [m, y];
    assert parts[1..] == [y];
    assert Join(parts, '/') == m + ['/'] + y;
    assert m + ['/'] + y == s;
    SplitJoin(parts, '/');
  }

  /** Two digits read by `parseInt` give their two-digit value. */
  lemma ParseTwoDigits(d: string, v: int)
    requires |d| == 2 && AllDigits(d) && 10 * DigitOf(d[0]) + DigitOf(d[1]) == v
    ensures ParseInt(d, Auto) == Int(v)
  {
    ParseIntOfDigits(d, Auto);
    DigitsValueOfTwo(d);
  }

  /** The texts either side of a well-formed expiry's slash. */
  lemma FieldsOfWellFormed(s: string)
    requires ExpiryFormatOk(s)
    ensures Split(s, '/')[0] == s[..2] && Field(s, '/', 1) == Some(s[3..])
  {
    SplitWellFormed(s);
  }

  lemma ExpiryMonthOfWellFormed(s: string, month: int)
    requires ExpiryFormatOk(s) && 10 * DigitOf(s[0]) + DigitOf(s[1]) == month
    ensures ExpiryMonth(s) == Int(month)
  {
    var m := s[..2];
    assert Split(s, '/')[0] == m by { FieldsOfWellFormed(s); }
    assert ParseInt(m, Auto) == Int(month) by {
      assert m[0] == s[0] && m[1] == s[1];
      ParseTwoDigits(m, month);
    }
  }

  lemma ExpiryYearOfWellFormed(s: string, yy: int)
    requires ExpiryFormatOk(s) && 10 * DigitOf(s[3]) + DigitOf(s[4]) == yy
    ensures ExpiryYear(s) == Int(yy)
  {
    var y := s[3..];
    assert Field(s, '/', 1) == Some(y) by { FieldsOfWellFormed(s); }
    assert ParseInt(y, Auto) == Int(yy) by {
      assert y[0] == s[3] && y[1] == s[4];
      ParseTwoDigits(y, yy);
    }
  }

  /** Every month/year pair writes as an accepted expiry format and reads
      back as itself. */
  lemma ExpiryTextRoundTrip(month: int, yy: int)
    requires 1 <= month <= 12 && 0 <= yy < 100
    ensures ExpiryFormatOk(ExpiryText(month, yy))
    ensures ExpiryMonth(ExpiryText(month, yy)) == Int(month)
    ensures ExpiryYear(ExpiryText(month, yy)) == Int(yy)
  {
    var t := ExpiryText(month, yy);
    ExpiryTextCharacters(month, yy);
    ExpiryMonthOfWellFormed(t, month);
    ExpiryYearOfWellFormed(t, yy);
  }

  /** The characters of an expiry text: the month's digits, a slash, the
      year's digits. */
  lemma ExpiryTextCharacters(month: int, yy: int)
    requires 1 <= month <= 12 && 0 <= yy < 100
    ensures var t := ExpiryText(month, yy);
      && ExpiryFormatOk(t)
      && 10 * DigitOf(t[0]) + DigitOf(t[1]) == month
      && 10 * DigitOf(t[3]) + DigitOf(t[4]) == yy
  {
    var a, b := TwoDigits(month), TwoDigits(yy);
    var t := ExpiryText(month, yy);
    assert t[0] == a[0] && t[1] == a[1] && t[2] == '/' && t[3] == b[0] && t[4] == b[1];
    MonthDigitsFormat(a, month);
  }

  /** The two digits of a month 1 to 12 match `0[1-9]|1[0-2]`. */
  lemma MonthDigitsFormat(a: string, month: int)
    requires |a| == 2 && AllDigits(a) && 10 * DigitOf(a[0]) + DigitOf(a[1]) == month
    requires 1 <= month <= 12
    ensures (a[0] == '0' && '1' <= a[1] <= '9') || (a[0] == '1' && '0' <= a[1] <= '2')
  {
  }

  /** For a well-formed expiry MM/YY the card is expired exactly when YY is
      before this year (mod 100), or is this year and MM is before this
      month; so the current month is still accepted. */
  lemma CardExpiredIff(month: int, yy: int, fullYear: int, currentMonth: int)
    requires 1 <= month <= 12 && 0 <= yy < 100
    ensures CardExpired(ExpiryText(month, yy), fullYear, currentMonth) <==>
      yy < JsRem(fullYear, 100) || (yy == JsRem(fullYear, 100) && month < currentMonth)
  {
    ExpiryTextRoundTrip(month, yy);
  }
}

=== FILE: purchased.dfy ===
/** src/components/PurchasedEventList.tsx: pick the latest order of each
    event, then list the events that have one, with a tier label. */
module PurchasedEvents {
  import opened Wrappers
  import opened Seqs
  import opened Text
  import opened Db

  /** The tier fields joined onto an order; a `name` of None or "" is falsy. */
  datatype TierInfo = TierInfo(name: Option<string>, price: int)

  datatype OrderView = OrderView(id: Id, eventId: int, ticketTierId: int, createdAt: Time, tier: Option<TierInfo>)

  /** Position i holds a latest order of event e: no order of e is newer,
      and every earlier order of e is strictly older. */
  ghost predicate LatestAt(orders: seq<OrderView>, e: int, i: int) {
    && 0 <= i < |orders| && orders[i].eventId == e
    && (forall j :: 0 <= j < |orders| && orders[j].eventId == e ==> orders[j].createdAt <= orders[i].createdAt)
    && (forall j :: 0 <= j < i && orders[j].eventId == e ==> orders[j].createdAt < orders[i].createdAt)
  }

  /** `order` is the latest order of event e in `orders`; on ties, the first. */
  ghost predicate IsLatest(orders: seq<OrderView>, e: int, order: OrderView) {
    exists i :: LatestAt(orders, e, i) && orders[i] == order
  }

  predicate HasOrder(orders: seq<OrderView>, e: int) {
    exists i :: 0 <= i < |orders| && orders[i].eventId == e
  }

  /** The `orders.forEach` that fills `eventOrders`: an order replaces the
      stored one only when strictly newer, so on ties the earliest stays. */
  function LatestPerEvent(orders: seq<OrderView>): (m: map<int, OrderView>)
    ensures forall e :: e in m <==> HasOrder(orders, e)
    ensures forall e :: e in m ==> IsLatest(orders, e, m[e])
    decreases |orders|
  {
    if |orders| == 0 then map[]
    else
      var init := orders[..|orders| - 1];
      var m := LatestPerEvent(init);
      var o := orders[|orders| - 1];
      var r := Store(m, o);
      forall e ensures e in r <==> HasOrder(orders, e) {
        StepKeys(orders, m, e);
      }
      forall e | e in r ensures IsLatest(orders, e, r[e]) {
        StepLatest(orders, m, e);
      }
      r
  }

  /** One iteration of the `forEach`. */
  function Store(m: map<int, OrderView>, o: OrderView): (r: map<int, OrderView>)
    ensures r.Keys == m.Keys + {o.eventId}
  {
    if o.eventId !in m || o.createdAt > m[o.eventId].createdAt then m[o.eventId := o] else m
  }

  lemma StepKeys(orders: seq<OrderView>, m: map<int, OrderView>, e: int)
    requires |orders| > 0
    requires forall e' :: e' in m <==> HasOrder(orders[..|orders| - 1], e')
    ensures e in Store(m, orders[|orders| - 1]) <==> HasOrder(orders, e)
  {
    var n := |orders| - 1;
    var init := orders[..n];
    if HasOrder(orders, e) {
      var i :| 0 <= i < |orders| && orders[i].eventId == e;
      if i < n {
        assert init[i] == orders[i];
      }
    }
    if e in m {
      var i :| 0 <= i < |init| && init[i].eventId == e;
      assert orders[i] == init[i];
    }
  }

  /** After one more order, the stored order of each event is still a
      latest one. */
  lemma StepLatest(orders: seq<OrderView>, m: map<int, OrderView>, e: int)
    requires |orders| > 0
    requires forall e' :: e' in m <==> HasOrder(orders[..|orders| - 1], e')
    requires forall e' :: e' in m ==> IsLatest(orders[..|orders| - 1], e', m[e'])
    requires e in Store(m, orders[|orders| - 1])
    ensures IsLatest(orders, e, Store(m, orders[|orders| - 1])[e])
  {
    var o := orders[|orders| - 1];
    if e == o.eventId && (e !in m || o.createdAt > m[e].createdAt) {
      StepReplaces(orders, m, e);
    } else {
      StepKeeps(orders, m, e);
    }
  }

  /** A strictly newer order (or the first of its event) is the latest. */
  lemma StepReplaces(orders: seq<OrderView>, m: map<int, OrderView>, e: int)
    requires |orders| > 0
    requires forall e' :: e' in m <==> HasOrder(orders[..|orders| - 1], e')
    requires forall e' :: e' in m ==> IsLatest(orders[..|orders| - 1], e', m[e'])
    requires orders[|orders| - 1].eventId == e
    requires e !in m || orders[|orders| - 1].createdAt > m[e].createdAt
    ensures LatestAt(orders, e, |orders| - 1)
  {
    var n := |orders| - 1;
    var init := orders[..n];
    forall j | 0 <= j < n && orders[j].eventId == e
      ensures orders[j].createdAt < orders[n].createdAt
    {
      assert init[j] == orders[j];
      assert HasOrder(init, e);
      var k :| LatestAt(init, e, k) && init[k] == m[e];
    }
  }

  /** Otherwise the stored order keeps its place. */
  lemma StepKeeps(orders: seq<OrderView>, m: map<int, OrderView>, e: int)
    requires |orders| > 0
    requires forall e' :: e' in m ==> IsLatest(orders[..|orders| - 1], e', m[e'])
    requires e in m
    requires orders[|orders| - 1].eventId == e ==> orders[|orders| - 1].createdAt <= m[e].createdAt
    ensures IsLatest(orders, e, m[e])
  {
    var n := |orders| - 1;
    var init := orders[..n];
    var k :| LatestAt(init, e, k) && init[k] == m[e];
    forall j | 0 <= j < |orders| && orders[j].eventId == e
      ensures orders[j].createdAt <= orders[k].createdAt
    {
      if j < n { assert init[j] == orders[j]; }
    }
    forall j | 0 <= j < k && orders[j].eventId == e
      ensures orders[j].createdAt < orders[k].createdAt
    {
      assert init[j] == orders[j];
    }
    assert LatestAt(orders, e, k);
  }

  /** The card label: "<name or Tier #id> - $<price>" with tier details,
      else "Tier #<id>". */
  function TierLabel(o: OrderView): (caption: string)
    ensures o.tier.None? ==> caption == "Tier #" + IntToString(o.ticketTierId)
    ensures o.tier.Some? ==>
      exists head :: caption == head + " - $" + IntToString(o.tier.value.price)
        && head == (if o.tier.value.name.Some? && o.tier.value.name.value != "" then o.tier.value.name.value
                    else "Tier #" + IntToString(o.ticketTierId))
  {
    var fallback := "Tier #" + IntToString(o.ticketTierId);
    match o.tier
    case None => fallback
    case Some(t) =>
      var head := if t.name.Some? && t.name.value != "" then t.name.value else fallback;
      head + " - $" + IntToString(t.price)
  }

  datatype EventCard = EventCard(eventId: int, order: OrderView, caption: string)

  datatype Listing = NoPurchasedEvents | Cards(cards: seq<EventCard>)

  /** The cards for `events` (their ids, in display order), skipping events
      without an order. */
  function CardsFor(eventIds: seq<int>, latest: map<int, OrderView>): (cards: seq<EventCard>)
    ensures |cards| <= |eventIds|
    ensures forall k :: 0 <= k < |cards| ==>
      cards[k].eventId in latest && cards[k].order == latest[cards[k].eventId]
      && cards[k].caption == TierLabel(cards[k].order)
    ensures CardEvents(cards) == Filter(eventIds, (e: int) => e in latest)
  {
    if |eventIds| == 0 then []
    else
      var rest := CardsFor(eventIds[1..], latest);
      var e := eventIds[0];
      if e in latest then
        var card := EventCard(e, latest[e], TierLabel(latest[e]));
        assert ([card] + rest)[1..] == rest;
        [card] + rest
      else rest
  }

  function CardEvents(cards: seq<EventCard>): (ids: seq<int>)
    ensures |ids| == |cards| && forall k :: 0 <= k < |cards| ==> ids[k] == cards[k].eventId
  {
    if |cards| == 0 then [] else [cards[0].eventId] + CardEvents(cards[1..])
  }

  /** `PurchasedEventList`: the message for an empty event list, else one
      card per event that has an order, in the events' order. */
  function PurchasedEventList(eventIds: seq<int>, orders: seq<OrderView>): (r: Listing)
    ensures r == NoPurchasedEvents <==> |eventIds| == 0
    ensures r.Cards? ==>
      && CardEvents(r.cards) == Filter(eventIds, (e: int) => HasOrder(orders, e))
      && (forall k :: 0 <= k < |r.cards| ==> IsLatest(orders, r.cards[k].eventId, r.cards[k].order))
      && (forall k :: 0 <= k < |r.cards| ==> r.cards[k].caption == TierLabel(r.cards[k].order))
  {
    if |eventIds| == 0 then NoPurchasedEvents
    else
      var latest := LatestPerEvent(orders);
      FilterSame(eventIds, (e: int) => e in latest,
                 (e: int) => HasOrder(orders, e));
      Cards(CardsFor(eventIds, latest))
  }
}

=== FILE: queue.dfy ===
/** The ticket-hold side of src/lib/queue.ts: `createReservation`, which checks
    stock and inserts a PENDING hold, and `processReservationExpiry`, the sweep
    that marks overdue holds EXPIRED. The Redis order queue is not modelled. */
module Queue {
  import opened Wrappers
  import opened Db

  /** RESERVATION_EXPIRY is 15 * 60 seconds; the hold expires that many
      milliseconds after it is created. */
  const ReservationExpiryMs: int := 15 * 60 * 1000

  /** The availability `createReservation` computes: the tier's stock minus
      the quantities of all its reservations, whatever their status. */
  function HoldAvailability(st: State, tierId: Id): Option<int> {
    match Row(st.tiers, tierId)
    case None => None
    case Some(t) => Some(t.quantity - Reserved(st.reservations, tierId, AllStatuses))
  }

  /** `createReservation(userId, tierId, quantity)` at time `now`: the new
      reservation's id, or None (the source's `null`) with no change. */
  function CreateReservation(st: State, now: Time, userId: UserId, tierId: Id, quantity: int): (r: (Option<Id>, State))
    ensures Row(st.tiers, tierId).None? ==> r == (None, st)
    ensures r.0.None? ==> r.1 == st
    ensures r.0.Some? <==> HoldAvailability(st, tierId).Some? && quantity <= HoldAvailability(st, tierId).value
    ensures r.0.Some? ==>
      && r.0.value == |st.reservations| + 1
      && |r.1.reservations| == |st.reservations| + 1
      && r.1.reservations[..|st.reservations|] == st.reservations
      && r.1.reservations[|st.reservations|]
           == TicketReservation(tierId, userId, quantity, Pending, now + ReservationExpiryMs)
      && r.1 == st.(reservations := r.1.reservations)
  {
    match HoldAvailability(st, tierId)
    case None => (None, st)
    case Some(available) =>
      if available < quantity then (None, st)
      else
        var hold := TicketReservation(tierId, userId, quantity, Pending, now + ReservationExpiryMs);
        (Some(|st.reservations| + 1), st.(reservations := st.reservations + [hold]))
  }

  /** A successful hold of q lowers createReservation's figure by exactly q
      (by less than nothing when q is negative). */
  lemma CreateLowersAvailability(st: State, now: Time, userId: UserId, tierId: Id, quantity: int)
    requires CreateReservation(st, now, userId, tierId, quantity).0.Some?
    ensures HoldAvailability(CreateReservation(st, now, userId, tierId, quantity).1, tierId)
         == Some(HoldAvailability(st, tierId).value - quantity)
  {
    var r := CreateReservation(st, now, userId, tierId, quantity);
    var hold := r.1.reservations[|st.reservations|];
    ReservedAppend(st.reservations, hold, tierId, AllStatuses);
    assert r.1.reservations == st.reservations + [hold];
  }

  /** Asking for exactly the available amount succeeds and leaves nothing available. */
  lemma CreateExactlyAvailable(st: State, now: Time, userId: UserId, tierId: Id)
    requires HoldAvailability(st, tierId).Some?
    ensures var r := CreateReservation(st, now, userId, tierId, HoldAvailability(st, tierId).value);
      r.0.Some? && HoldAvailability(r.1, tierId) == Some(0)
  {
    CreateLowersAvailability(st, now, userId, tierId, HoldAvailability(st, tierId).value);
  }

  /** Every tier's reservations, of any status, sum to no more than its stock. */
  ghost predicate NoOversell(st: State) {
    forall t :: 1 <= t <= |st.tiers| ==> Reserved(st.reservations, t, AllStatuses) <= st.tiers[t - 1].quantity
  }

  /** A createReservation call, successful or not, keeps NoOversell. */
  lemma CreateKeepsNoOversell(st: State, now: Time, userId: UserId, tierId: Id, quantity: int)
    requires NoOversell(st)
    ensures NoOversell(CreateReservation(st, now, userId, tierId, quantity).1)
  {
    var r := CreateReservation(st, now, userId, tierId, quantity);
    if r.0.Some? {
      var hold := r.1.reservations[|st.reservations|];
      assert r.1.reservations == st.reservations + [hold];
      forall t | 1 <= t <= |r.1.tiers|
        ensures Reserved(r.1.reservations, t, AllStatuses) <= r.1.tiers[t - 1].quantity
      {
        ReservedAppend(st.reservations, hold, t, AllStatuses);
      }
    }
  }

  /** One reservation after the sweep at `now`. */
  function Expire(r: TicketReservation, now: Time): TicketReservation {
    if r.status == Pending && r.expiresAt < now then r.(status := Expired) else r
  }

  /** The effect of the sweep: every PENDING reservation whose expiry is strictly
      before `now` becomes EXPIRED and nothing else changes. */
  function Sweep(st: State, now: Time): (r: State)
    ensures |r.reservations| == |st.reservations|
    ensures forall i :: 0 <= i < |st.reservations| ==>
      (r.reservations[i].status != st.reservations[i].status <==>
         st.reservations[i].status == Pending && st.reservations[i].expiresAt < now)
    ensures forall i :: 0 <= i < |st.reservations| ==>
      r.reservations[i].status in {st.reservations[i].status, Expired}
    ensures forall i :: 0 <= i < |st.reservations| ==>
      r.reservations[i] == st.reservations[i].(status := r.reservations[i].status)
    ensures r == st.(reservations := r.reservations)
  {
    st.(reservations := seq(|st.reservations|, i requires 0 <= i < |st.reservations| => Expire(st.reservations[i], now)))
  }

  /** How many reservations the sweep finds overdue. */
  function CountOverdue(rs: seq<TicketReservation>, now: Time): nat {
    if |rs| == 0 then 0
    else
      var r := rs[|rs| - 1];
      CountOverdue(rs[..|rs| - 1], now) + (if r.status == Pending && r.expiresAt < now then 1 else 0)
  }

  /** `processReservationExpiry()` at time `now`: find the overdue PENDING
      reservations and update them one by one. Also returns how many it found. */
  method ProcessReservationExpiry(st: State, now: Time) returns (st': State, found: nat)
    ensures st' == Sweep(st, now)
    ensures found == CountOverdue(st.reservations, now)
  {
    var rs := st.reservations;
    found := 0;
    var i := 0;
    while i < |rs|
      invariant 0 <= i <= |rs| && |rs| == |st.reservations|
      invariant forall k :: 0 <= k < i ==> rs[k] == Expire(st.reservations[k], now)
      invariant forall k :: i <= k < |rs| ==> rs[k] == st.reservations[k]
      invariant found == CountOverdue(st.reservations[..i], now)
    {
      assert st.reservations[..i + 1][..i] == st.reservations[..i];
      if rs[i].status == Pending && rs[i].expiresAt < now {
        rs := rs[i := rs[i].(status := Expired)];
        found := found + 1;
      }
      i := i + 1;
    }
    assert st.reservations[..i] == st.reservations;
    st' := st.(reservations := rs);
  }

  /** Sweeping twice at the same time is sweeping once. */
  lemma SweepIdempotent(st: State, now: Time)
    ensures Sweep(Sweep(st, now), now) == Sweep(st, now)
  {
  }

  /** The sweep leaves createReservation's availability unchanged: that sum
      ignores status, and the sweep changes only statuses. */
  lemma SweepKeepsHoldAvailability(st: State, now: Time, tierId: Id)
    ensures HoldAvailability(Sweep(st, now), tierId) == HoldAvailability(st, tierId)
  {
    var s := Sweep(st, now);
    ReservedPointwise(st.reservations, s.reservations, tierId, AllStatuses);
  }

  lemma SweepKeepsNoOversell(st: State, now: Time)
    requires NoOversell(st)
    ensures NoOversell(Sweep(st, now))
  {
    var s := Sweep(st, now);
    forall t | 1 <= t <= |s.tiers|
      ensures Reserved(s.reservations, t, AllStatuses) <= s.tiers[t - 1].quantity
    {
      SweepKeepsHoldAvailability(st, now, t);
    }
  }

  /** A call a client can make on the hold side. */
  datatype Step =
    | Reserve(at: Time, userId: UserId, tierId: Id, quantity: int)
    | SweepAt(at: Time)

  /** The state after running the calls one after another. */
  function Run(st: State, steps: seq<Step>): State
    decreases |steps|
  {
    if |steps| == 0 then st
    else
      var next := match steps[0]
        case Reserve(at, u, t, q) => CreateReservation(st, at, u, t, q).1
        case SweepAt(at) => Sweep(st, at);
      Run(next, steps[1..])
  }

  /** No oversell under sequential calls: however reservations and sweeps are
      interleaved, no tier's reservations ever sum past its stock. */
  lemma {:induction false} RunKeepsNoOversell(st: State, steps: seq<Step>)
    requires NoOversell(st)
    ensures NoOversell(Run(st, steps))
    decreases |steps|
  {
    if |steps| > 0 {
      match steps[0]
      case Reserve(at, u, t, q) =>
        CreateKeepsNoOversell(st, at, u, t, q);
        RunKeepsNoOversell(CreateReservation(st, at, u, t, q).1, steps[1..]);
      case SweepAt(at) =>
        SweepKeepsNoOversell(st, at);
        RunKeepsNoOversell(Sweep(st, at), steps[1..]);
    }
  }

  /** Quantity is never checked for positivity, so a negative hold lowers the
      sum and lets positive holds exceed the stock: whenever a tier has q
      tickets available, holds of q, -q and q all succeed, and the two
      positive holds add up to 2q. */
  lemma NegativeQuantityOverbooks(st: State, now: Time, tierId: Id, q: int)
    requires HoldAvailability(st, tierId) == Some(q) && q > 0
    ensures
      var r1 := CreateReservation(st, now, "a", tierId, q);
      var r2 := CreateReservation(r1.1, now, "b", tierId, -q);
      var r3 := CreateReservation(r2.1, now, "c", tierId, q);
      && r1.0.Some? && r2.0.Some? && r3.0.Some?
      && r3.1.reservations[|st.reservations|].quantity + r3.1.reservations[|st.reservations| + 2].quantity == 2 * q
      && HoldAvailability(r3.1, tierId) == Some(0)
  {
    var n := |st.reservations|;
    var r1 := CreateReservation(st, now, "a", tierId, q);
    CreateLowersAvailability(st, now, "a", tierId, q);
    assert HoldAvailability(r1.1, tierId) == Some(0);
    var r2 := CreateReservation(r1.1, now, "b", tierId, -q);
    CreateLowersAvailability(r1.1, now, "b", tierId, -q);
    assert HoldAvailability(r2.1, tierId) == Some(q);
    var r3 := CreateReservation(r2.1, now, "c", tierId, q);
    CreateLowersAvailability(r2.1, now, "c", tierId, q);
    assert r3.1.reservations[..n + 2] == r2.1.reservations;
    assert r3.1.reservations[n] == r2.1.reservations[n];
    assert r2.1.reservations[..n + 1] == r1.1.reservations;
    assert r2.1.reservations[n] == r1.1.reservations[n];
  }
}

=== FILE: registration.dfy ===
/** `createRegistration` of src/lib/actions.ts: the registration (QR ticket)
    of an order, whose token is the order id written in decimal. */
module Registrations {
  import opened Wrappers
  import opened Seqs
  import opened Text
  import opened Db

  /** The QR token given to the registration of order `orderId`. */
  function TokenOf(orderId: nat): (token: string)
    ensures token != [] && AllDigits(token)
  {
    NatToString(orderId)
  }

  predicate HasToken(regs: seq<Registration>, token: string) {
    exists i :: 0 <= i < |regs| && regs[i].qrCodeToken == token
  }

  /** The table's unique constraint on `qrCodeToken`. */
  ghost predicate UniqueTokens(regs: seq<Registration>) {
    forall i, j :: 0 <= i < j < |regs| ==> regs[i].qrCodeToken != regs[j].qrCodeToken
  }

  datatype RegisterResult =
    /** "Order not found" is thrown. */
    | OrderNotFound
    /** A registration with the token already exists: nothing is written. */
    | AlreadyRegistered
    | Registered

  /** `createRegistration(orderId)` at time `now`. A new registration is not
      checked in; its `checkInTime` is nevertheless set to `now`. */
  function CreateRegistration(st: State, now: Time, orderId: int): (r: (RegisterResult, State))
    ensures !r.0.Registered? ==> r.1 == st
    ensures r.0 == OrderNotFound <==> Row(st.orders, orderId).None?
    ensures r.0 == AlreadyRegistered <==>
      Row(st.orders, orderId).Some? && HasToken(st.registrations, TokenOf(orderId))
    ensures r.0 == Registered ==>
      && Row(st.orders, orderId).Some?
      && !HasToken(st.registrations, TokenOf(orderId))
      && var o := st.orders[orderId - 1];
      && r.1 == st.(registrations := st.registrations
                       + [Registration(TokenOf(orderId), o.userId, o.eventId, false, now)])
    // afterwards the order always has its registration
    ensures r.0 != OrderNotFound ==> HasToken(r.1.registrations, TokenOf(orderId))
  {
    match Row(st.orders, orderId)
    case None => (OrderNotFound, st)
    case Some(o) =>
      var token := TokenOf(orderId);
      if FirstIndex(st.registrations, (g: Registration) => g.qrCodeToken == token).Some? then
        (AlreadyRegistered, st)
      else
        var g := Registration(token, o.userId, o.eventId, false, now);
        assert (st.registrations + [g])[|st.registrations|].qrCodeToken == token;
        (Registered, st.(registrations := st.registrations + [g]))
  }

  /** Registering is idempotent: a second call, at any time, changes nothing. */
  lemma CreateRegistrationIdempotent(st: State, now: Time, later: Time, orderId: int)
    ensures var once := CreateRegistration(st, now, orderId).1;
      CreateRegistration(once, later, orderId).1 == once
  {
  }

  /** Registering keeps tokens unique, and so keeps the table's constraint. */
  lemma CreateKeepsUniqueTokens(st: State, now: Time, orderId: int)
    requires UniqueTokens(st.registrations)
    ensures UniqueTokens(CreateRegistration(st, now, orderId).1.registrations)
  {
    var r := CreateRegistration(st, now, orderId);
    if r.0 == Registered {
      var regs := r.1.registrations;
      forall i, j | 0 <= i < j < |regs|
        ensures regs[i].qrCodeToken != regs[j].qrCodeToken
      {
        if j == |st.registrations| {
          assert regs[i] == st.registrations[i];
        }
      }
    }
  }

  /** Distinct orders get distinct tokens, so registering one never blocks
      registering another. */
  lemma DistinctOrdersBothRegister(st: State, now: Time, a: int, b: int)
    requires Row(st.orders, a).Some? && Row(st.orders, b).Some? && a != b
    requires !HasToken(st.registrations, TokenOf(a)) && !HasToken(st.registrations, TokenOf(b))
    ensures var first := CreateRegistration(st, now, a);
      first.0 == Registered && CreateRegistration(first.1, now, b).0 == Registered
  {
    if TokenOf(a) == TokenOf(b) {
      NatToStringInjective(a, b);
    }
    var first := CreateRegistration(st, now, a);
    var regs := first.1.registrations;
    forall i | 0 <= i < |regs|
      ensures regs[i].qrCodeToken != TokenOf(b)
    {
      if i < |st.registrations| {
        assert regs[i] == st.registrations[i];
      }
    }
  }
}

=== FILE: seqs.dfy ===
/** Sequence operations the handlers and components lean on: the first match
    (Prisma's findFirst, a JavaScript `find`) and order-preserving filtering
    (Array.prototype.filter, Prisma's findMany over one table). */
module Seqs {
  import opened Wrappers

  /** The position of the first element that satisfies p. */
  function FirstIndex<T>(s: seq<T>, p: T -> bool): (r: Option<nat>)
    ensures r.Some? ==> r.value < |s| && p(s[r.value])
    ensures r.Some? ==> forall j :: 0 <= j < r.value ==> !p(s[j])
    ensures r.None? <==> forall j :: 0 <= j < |s| ==> !p(s[j])
  {
    if |s| == 0 then None
    else if p(s[0]) then Some(0)
    else match FirstIndex(s[1..], p)
      case None => None
      case Some(i) => Some(i + 1)
  }

  /** r can be obtained from s by deleting elements, without reordering. */
  predicate IsSubsequence<T(==)>(r: seq<T>, s: seq<T>)
  {
    if |s| == 0 then |r| == 0
    else (|r| > 0 && r[0] == s[0] && IsSubsequence(r[1..], s[1..]))
         || IsSubsequence(r, s[1..])
  }

  /** The elements of s that satisfy p, in their original order. */
  function Filter<T(==,!new)>(s: seq<T>, p: T -> bool): (r: seq<T>)
    ensures |r| <= |s|
    ensures forall x :: x in r <==> x in s && p(x)
    ensures IsSubsequence(r, s)
    // every kept element keeps all its copies
    ensures forall x :: multiset(r)[x] == if p(x) then multiset(s)[x] else 0
  {
    if |s| == 0 then []
    else
      var rest := Filter(s[1..], p);
      assert s == [s[0]] + s[1..];
      assert multiset(s) == multiset([s[0]]) + multiset(s[1..]);
      if p(s[0]) then
        assert multiset([s[0]] + rest) == multiset([s[0]]) + multiset(rest);
        [s[0]] + rest
      else rest
  }

  /** Filtering with a predicate every element satisfies changes nothing. */
  lemma {:induction false} FilterAll<T(!new)>(s: seq<T>, p: T -> bool)
    requires forall x :: x in s ==> p(x)
    ensures Filter(s, p) == s
  {
    if |s| > 0 {
      assert s[0] in s;
      forall x | x in s[1..] ensures p(x) {
        assert x in s;
      }
      FilterAll(s[1..], p);
      assert [s[0]] + s[1..] == s;
    }
  }

  /** Filtering by two predicates that agree on every element gives the same result. */
  lemma {:induction false} FilterSame<T(!new)>(s: seq<T>, p: T -> bool, q: T -> bool)
    requires forall x :: p(x) == q(x)
    ensures Filter(s, p) == Filter(s, q)
  {
    if |s| > 0 {
      FilterSame(s[1..], p, q);
    }
  }

  /** The values f gives, in order, skipping the elements it gives None for
      (a loop that pushes only the rows it keeps). */
  function FilterMap<A, B>(s: seq<A>, f: A -> Option<B>): (r: seq<B>)
    ensures |r| <= |s|
    ensures forall x :: x in s && f(x).Some? ==> f(x).value in r
    ensures forall y :: y in r ==> exists x :: x in s && f(x) == Some(y)
  {
    if |s| == 0 then []
    else
      var rest := FilterMap(s[1..], f);
      assert forall x :: x in s[1..] ==> x in s;
      assert forall x :: x in s ==> x == s[0] || x in s[1..];
      if f(s[0]).Some? then [f(s[0]).value] + rest else rest
  }

  /** FilterMap keeps the order of its input: it distributes over `+`, */
  lemma {:induction false} FilterMapAppend<A, B>(a: seq<A>, b: seq<A>, f: A -> Option<B>)
    ensures FilterMap(a + b, f) == FilterMap(a, f) + FilterMap(b, f)
    decreases |a|
  {
    if |a| == 0 {
      assert a + b == b;
    } else {
      assert (a + b)[1..] == a[1..] + b;
      assert (a + b)[0] == a[0];
      FilterMapAppend(a[1..], b, f);
      var head := if f(a[0]).Some? then [f(a[0]).value] else [];
      assert FilterMap(a + b, f) == head + FilterMap(a[1..] + b, f);
      assert FilterMap(a, f) == head + FilterMap(a[1..], f);
    }
  }

  /** and on one element gives that element's value, or nothing. */
  lemma FilterMapOne<A, B>(x: A, f: A -> Option<B>)
    ensures FilterMap([x], f) == if f(x).Some? then [f(x).value] else []
  {
    assert [x][1..] == [];
  }
}

=== FILE: text.dfy ===
/** The JavaScript string behaviour the handlers rely on: `trim()`, the `\s`
    and `\d` regular-expression classes, `toLowerCase()`, `includes`,
    `startsWith`, `split`, number-to-decimal conversion and `parseInt`. */
module Text {
  import opened Wrappers
  import opened Seqs

  /** JavaScript's WhiteSpace and LineTerminator code points: what `trim()`
      strips, what `\s` matches and what `parseInt` skips. */
  predicate IsSpace(c: char) {
    || c == '\t' || c == '\n' || c == '\U{000B}' || c == '\U{000C}' || c == '\r'
    || c == ' ' || c == '\U{00A0}' || c == '\U{1680}'
    || ('\U{2000}' <= c <= '\U{200A}')
    || c == '\U{2028}' || c == '\U{2029}' || c == '\U{202F}' || c == '\U{205F}'
    || c == '\U{3000}' || c == '\U{FEFF}'
  }

  /** A line terminator: the characters the regular-expression `.` does not match. */
  predicate IsLineTerminator(c: char) {
    c == '\n' || c == '\r' || c == '\U{2028}' || c == '\U{2029}'
  }

  /** Every character is white space, so `s.trim() === ""`. */
  predicate IsBlank(s: string) {
    forall i :: 0 <= i < |s| ==> IsSpace(s[i])
  }

  /** `s.trimStart()`: the suffix left after dropping leading white space. */
  function TrimStart(s: string): (r: string)
    ensures |r| <= |s| && r == s[|s| - |r|..]
    ensures forall i :: 0 <= i < |s| - |r| ==> IsSpace(s[i])
    ensures |r| > 0 ==> !IsSpace(r[0])
  {
    if |s| > 0 && IsSpace(s[0]) then TrimStart(s[1..]) else s
  }

  /** `s.trimEnd()`: the prefix left after dropping trailing white space. */
  function TrimEnd(s: string): (r: string)
    ensures |r| <= |s| && r == s[..|r|]
    ensures forall i :: |r| <= i < |s| ==> IsSpace(s[i])
    ensures |r| > 0 ==> !IsSpace(r[|r| - 1])
  {
    if |s| > 0 && IsSpace(s[|s| - 1]) then TrimEnd(s[..|s| - 1]) else s
  }

  /** `s.trim()`. */
  function Trim(s: string): string {
    TrimEnd(TrimStart(s))
  }

  /** Trimming leaves nothing exactly when the string is all white space. */
  lemma TrimEmptyIffBlank(s: string)
    ensures Trim(s) == [] <==> IsBlank(s)
  {
    var t := TrimStart(s);
    if Trim(s) == [] {
    } else {
      var r := Trim(s);
      assert r[0] == t[0];
      assert !IsSpace(s[|s| - |t|]);
    }
  }

  /** `s.replace(/\s/g, '')`. */
  function StripSpaces(s: string): string {
    Filter(s, (c: char) => !IsSpace(c))
  }

  /** The `\d` class: an ASCII decimal digit. */
  predicate IsDigit(c: char) {
    '0' <= c <= '9'
  }

  predicate AllDigits(s: string) {
    forall i :: 0 <= i < |s| ==> IsDigit(s[i])
  }

  /** The value of a decimal digit. */
  function DigitOf(c: char): int
    requires IsDigit(c)
  {
    c as int - '0' as int
  }

  /** `toLowerCase` on one character, for the ASCII letters A to Z. */
  function LowerChar(c: char): char {
    if 'A' <= c <= 'Z' then (c as int - 'A' as int + 'a' as int) as char else c
  }

  function ToLower(s: string): (r: string)
    ensures |r| == |s|
    ensures forall i :: 0 <= i < |s| ==> r[i] == LowerChar(s[i])
  {
    seq(|s|, i requires 0 <= i < |s| => LowerChar(s[i]))
  }

  /** Lower-casing twice is lower-casing once. */
  lemma ToLowerIdempotent(s: string)
    ensures ToLower(ToLower(s)) == ToLower(s)
  {
  }

  /** `s.startsWith(p)`. */
  predicate StartsWith(s: string, p: string) {
    |p| <= |s| && s[..|p|] == p
  }

  /** `s.includes(sub)`. */
  predicate Contains(s: string, sub: string) {
    exists i :: 0 <= i <= |s| - |sub| && StartsWith(s[i..], sub)
  }

  /** Every string includes the empty string. */
  lemma ContainsEmpty(s: string)
    ensures Contains(s, "")
  {
    assert StartsWith(s[0..], "");
  }

  /** `s.split(sep)` for a one-character separator: the maximal runs between
      separators, including empty ones at either end. */
  function Split(s: string, sep: char): (parts: seq<string>)
    ensures |parts| >= 1
    ensures forall k :: 0 <= k < |parts| ==> sep !in parts[k]
    ensures Join(parts, sep) == s
  {
    if |s| == 0 then [""]
    else if s[0] == sep then
      var rest := Split(s[1..], sep);
      JoinCons([sep], rest, sep);
      [""] + rest
    else
      var rest := Split(s[1..], sep);
      JoinHead([s[0]], rest, sep);
      assert [s[0]] + s[1..] == s;
      [[s[0]] + rest[0]] + rest[1..]
  }

  /** `parts.join(sep)`. */
  function Join(parts: seq<string>, sep: char): string
    requires |parts| >= 1
  {
    if |parts| == 1 then parts[0] else parts[0] + [sep] + Join(parts[1..], sep)
  }

  /** Putting text before the first part puts it before the whole join. */
  lemma JoinHead(pre: string, parts: seq<string>, sep: char)
    requires |parts| >= 1
    ensures Join([pre + parts[0]] + parts[1..], sep) == pre + Join(parts, sep)
  {
    var ps := [pre + parts[0]] + parts[1..];
    assert ps[1..] == parts[1..];
  }

  /** An empty first part contributes only its separator. */
  lemma JoinCons(pre: string, parts: seq<string>, sep: char)
    requires |parts| >= 1 && pre == [sep]
    ensures Join([""] + parts, sep) == pre + Join(parts, sep)
  {
    assert ([""] + parts)[1..] == parts;
  }

  /** Splitting the join of separator-free parts gives the parts back. */
  lemma {:induction false} SplitJoin(parts: seq<string>, sep: char)
    requires |parts| >= 1
    requires forall k :: 0 <= k < |parts| ==> sep !in parts[k]
    ensures Split(Join(parts, sep), sep) == parts
    decreases |parts|, |parts[0]|
  {
    var p0 := parts[0];
    if |parts| == 1 {
      if |p0| > 0 {
        assert p0[0] != sep by { assert p0[0] in p0; }
        SplitJoin([p0[1..]], sep);
        assert [p0[0]] + p0[1..] == p0;
      }
    } else {
      var tail := Join(parts[1..], sep);
      if |p0| == 0 {
        assert Join(parts, sep) == [sep] + tail;
        assert ([sep] + tail)[1..] == tail;
        SplitJoin(parts[1..], sep);
        assert [""] + parts[1..] == parts;
      } else {
        assert p0[0] != sep by { assert p0[0] in p0; }
        var smaller := [p0[1..]] + parts[1..];
        forall k | 0 <= k < |smaller| ensures sep !in smaller[k] {
          if k > 0 {
            assert smaller[k] == parts[k];
          }
        }
        assert smaller[1..] == parts[1..];
        SplitJoin(smaller, sep);
        assert Join(smaller, sep) == p0[1..] + [sep] + tail;
        assert Join(parts, sep) == [p0[0]] + Join(smaller, sep);
        assert ([p0[0]] + Join(smaller, sep))[1..] == Join(smaller, sep);
        assert [p0[0]] + p0[1..] == p0;
        assert [[p0[0]] + smaller[0]] + smaller[1..] == parts;
      }
    }
  }

  /** The k-th field of `s.split(sep)`, or None where JavaScript gives `undefined`. */
  function Field(s: string, sep: char, k: nat): Option<string> {
    var parts := Split(s, sep);
    if k < |parts| then Some(parts[k]) else None
  }

  /** The character of a decimal digit value. */
  function DigitChar(d: int): (c: char)
    requires 0 <= d < 10
    ensures IsDigit(c) && DigitOf(c) == d
  {
    ('0' as int + d) as char
  }

  /** `n.toString()` for a non-negative integer: its decimal digits, no leading zero. */
  function NatToString(n: nat): (r: string)
    ensures |r| >= 1 && AllDigits(r)
    ensures |r| > 1 ==> r[0] != '0'
  {
    if n < 10 then [DigitChar(n)] else NatToString(n / 10) + [DigitChar(n % 10)]
  }

  /** `n.toString()` for any integer. */
  function IntToString(n: int): string {
    if n < 0 then "-" + NatToString(-n) else NatToString(n)
  }

  /** The result of `parseInt`: an integer, or NaN. */
  datatype JsInt = Int(value: int) | NaN

  /** `parseInt(s)` detects a `0x` prefix; `parseInt(s, 10)` does not. */
  datatype Radix = Auto | Decimal

  /** The value of a hexadecimal digit, or 99 for any other character. */
  function HexDigitOf(c: char): int {
    if '0' <= c <= '9' then c as int - '0' as int
    else if 'a' <= c <= 'f' then c as int - 'a' as int + 10
    else if 'A' <= c <= 'F' then c as int - 'A' as int + 10
    else 99
  }

  /** How many leading characters of s are digits in the given base. */
  function DigitRun(s: string, base: int): (n: nat)
    ensures n <= |s|
    ensures forall i :: 0 <= i < n ==> HexDigitOf(s[i]) < base
    ensures n < |s| ==> HexDigitOf(s[n]) >= base
  {
    if |s| > 0 && HexDigitOf(s[0]) < base then 1 + DigitRun(s[1..], base) else 0
  }

  /** The value of a run of digits in the given base, most significant first. */
  function DigitsValue(s: string, base: int): int
  {
    if |s| == 0 then 0 else DigitsValue(s[..|s| - 1], base) * base + HexDigitOf(s[|s| - 1])
  }

  /** `parseInt(s)` or `parseInt(s, 10)`: skip leading white space, read an
      optional sign, then the longest run of digits; no digits gives NaN.
      Precision loss above 2^53 is not modelled. */
  function ParseInt(s: string, radix: Radix): JsInt {
    ParseSigned(TrimStart(s), radix)
  }

  /** An optional sign, then the magnitude. */
  function ParseSigned(t: string, radix: Radix): JsInt {
    if |t| > 0 && t[0] == '-' then Negate(ParseMagnitude(t[1..], radix))
    else if |t| > 0 && t[0] == '+' then ParseMagnitude(t[1..], radix)
    else ParseMagnitude(t, radix)
  }

  function Negate(v: JsInt): JsInt {
    match v
    case Int(n) => Int(-n)
    case NaN => NaN
  }

  /** The longest run of digits, in base 16 after a `0x` prefix when the radix
      is left to `parseInt`, else in base 10. */
  function ParseMagnitude(u: string, radix: Radix): JsInt {
    var hex := radix == Auto && |u| >= 2 && u[0] == '0' && (u[1] == 'x' || u[1] == 'X');
    var base := if hex then 16 else 10;
    var body := if hex then u[2..] else u;
    var n := DigitRun(body, base);
    if n == 0 then NaN else Int(DigitsValue(body[..n], base))
  }

  /** The decimal digits of n read back give n. */
  lemma {:induction false} DigitsValueOfNatToString(n: nat)
    ensures DigitsValue(NatToString(n), 10) == n
  {
    var s := NatToString(n);
    if n >= 10 {
      DigitsValueOfNatToString(n / 10);
      assert s[..|s| - 1] == NatToString(n / 10);
    }
  }

  /** A string of decimal digits is one run of base-10 digits. */
  lemma {:induction false} DigitRunOfDigits(s: string)
    requires AllDigits(s)
    ensures DigitRun(s, 10) == |s|
  {
    if |s| > 0 {
      DigitRunOfDigits(s[1..]);
    }
  }

  /** A non-empty string of decimal digits reads back as its value. */
  lemma ParseMagnitudeOfDigits(d: string, radix: Radix)
    requires |d| >= 1 && AllDigits(d)
    ensures ParseMagnitude(d, radix) == Int(DigitsValue(d, 10))
  {
    var hex := radix == Auto && |d| >= 2 && d[0] == '0' && (d[1] == 'x' || d[1] == 'X');
    assert !hex by {
      if |d| >= 2 { assert IsDigit(d[1]); }
    }
    DigitRunOfDigits(d);
    var n := DigitRun(d, 10);
    assert n == |d|;
    assert d[..n] == d;
  }

  /** `parseInt` of a string of decimal digits is their value. */
  lemma ParseIntOfDigits(d: string, radix: Radix)
    requires |d| >= 1 && AllDigits(d)
    ensures ParseInt(d, radix) == Int(DigitsValue(d, 10))
  {
    assert !IsSpace(d[0]);
    ParseMagnitudeOfDigits(d, radix);
  }

  /** The value of two decimal digits. */
  lemma DigitsValueOfTwo(d: string)
    requires |d| == 2 && AllDigits(d)
    ensures DigitsValue(d, 10) == 10 * DigitOf(d[0]) + DigitOf(d[1])
  {
    var d1 := d[..1];
    assert d1[..0] == [];
    assert DigitsValue(d1, 10) == HexDigitOf(d[0]);
    assert DigitsValue(d, 10) == DigitsValue(d1, 10) * 10 + HexDigitOf(d[1]);
  }

  /** An ASCII letter past the hexadecimal digits: g to z or G to Z. */
  predicate IsLetter(c: char) {
    ('g' <= c <= 'z') || ('G' <= c <= 'Z')
  }

  /** Text that starts with such a letter is not a number. */
  lemma ParseIntOfLetter(s: string, radix: Radix)
    requires |s| > 0 && IsLetter(s[0])
    ensures ParseInt(s, radix) == NaN
  {
    assert !IsSpace(s[0]);
    assert TrimStart(s) == s;
    assert DigitRun(s, 10) == 0;
  }

  /** `parseInt(String(n))` is n, with or without an explicit radix. */
  lemma ParseIntOfIntToString(n: int, radix: Radix)
    ensures ParseInt(IntToString(n), radix) == Int(n)
  {
    var m: nat := if n < 0 then -n else n;
    DigitsValueOfNatToString(m);
    if n < 0 {
      var s := IntToString(n);
      assert s[1..] == NatToString(m);
      ParseIntOfNegative(s, radix);
    } else {
      ParseIntOfDigits(NatToString(m), radix);
    }
  }

  /** A minus sign before decimal digits negates their value. */
  lemma ParseIntOfNegative(s: string, radix: Radix)
    requires |s| >= 2 && s[0] == '-' && AllDigits(s[1..])
    ensures ParseInt(s, radix) == Int(-DigitsValue(s[1..], 10))
  {
    assert !IsSpace(s[0]);
    assert TrimStart(s) == s;
    ParseMagnitudeOfDigits(s[1..], radix);
    assert ParseSigned(s, radix) == Negate(ParseMagnitude(s[1..], radix));
  }

  /** In base 10, a "0" followed by a character that is not a decimal digit
      (such as the x of a hexadecimal prefix) reads as 0. */
  lemma ParseDecimalLeadingZero(s: string)
    requires |s| >= 2 && s[0] == '0' && HexDigitOf(s[1]) >= 10
    ensures ParseInt(s, Decimal) == Int(0)
  {
    assert !IsSpace(s[0]);
    assert TrimStart(s) == s;
    assert ParseSigned(s, Decimal) == ParseMagnitude(s, Decimal);
    assert DigitRun(s[1..], 10) == 0;
    assert DigitRun(s, 10) == 1;
    assert s[..1] == "0";
    assert DigitsValue("0", 10) == 0 by {
      assert "0"[..0] == "";
    }
  }

  /** Distinct numbers print differently. */
  lemma NatToStringInjective(a: nat, b: nat)
    requires NatToString(a) == NatToString(b)
    ensures a == b
  {
    DigitsValueOfNatToString(a);
    DigitsValueOfNatToString(b);
  }
}

=== FILE: ticket_section.dfy ===
/** src/components/tickets/TicketSection.tsx: the ticket picker's state
    changes and its price total. Prices are exact reals here; the component's
    floating-point rounding is not modelled. */
module TicketSection {
  import opened Wrappers
  import opened Text
  import opened Db
  import opened DiscountValidate

  /** The fields of a tier the component reads. */
  datatype TierView = TierView(id: Id, price: int, quantity: int)

  /** The result of the last validation: `type` is the string the route
      returned ("" after a failure). */
  datatype DiscountInfo = DiscountInfo(kind: string, value: real, valid: bool)

  datatype Picker = Picker(
    selected: Option<TierView>, quantity: int, discountCode: string, discountInfo: Option<DiscountInfo>)

  /** The component's initial state. */
  const Initial := Picker(None, 1, "", None)

  /** `handleQuantityChange`: the typed text is read by `parseInt` and taken
      only when a ticket is selected and 1 <= value <= its quantity. */
  function ChangeQuantity(p: Picker, text: string): (r: Picker)
    ensures r.selected == p.selected && r.discountCode == p.discountCode && r.discountInfo == p.discountInfo
    ensures r.quantity != p.quantity ==>
      p.selected.Some? && ParseInt(text, Auto) == Int(r.quantity) && 1 <= r.quantity <= p.selected.value.quantity
    ensures p.selected.Some? && ParseInt(text, Auto).Int? ==>
      var v := ParseInt(text, Auto).value;
      (1 <= v <= p.selected.value.quantity ==> r.quantity == v)
  {
    match ParseInt(text, Auto)
    case Int(v) =>
      if p.selected.Some? && v >= 1 && v <= p.selected.value.quantity then p.(quantity := v) else p
    case NaN => p
  }

  /** Picking a tier selects it and resets the quantity to 1. */
  function SelectTicket(p: Picker, t: TierView): (r: Picker)
    ensures r.selected == Some(t) && r.quantity == 1
    ensures r.discountCode == p.discountCode && r.discountInfo == p.discountInfo
  {
    p.(selected := Some(t), quantity := 1)
  }

  /** The quantity is a whole number of tickets the selected tier can cover. */
  predicate QuantityInRange(p: Picker) {
    p.selected.Some? && 1 <= p.quantity <= p.selected.value.quantity
  }

  /** Once in range, quantity edits keep it in range; selecting a tier with
      stock puts it in range. */
  lemma QuantityStaysInRange(p: Picker, text: string, t: TierView)
    ensures QuantityInRange(p) ==> QuantityInRange(ChangeQuantity(p, text))
    ensures t.quantity >= 1 ==> QuantityInRange(SelectTicket(p, t))
  {
  }

  /** `validateDiscountCode` is skipped for a blank code. */
  predicate WillValidate(code: string) {
    Trim(code) != []
  }

  function TypeName(t: DiscountType): string {
    match t
    case Percentage => "PERCENTAGE"
    case FixedAmount => "FIXED_AMOUNT"
  }

  /** The picker after the validation route answers: a 200 stores the code's
      type and value as valid, anything else an invalid entry. */
  function ApplyValidation(p: Picker, resp: ValidateResponse): (r: Picker)
    ensures r.selected == p.selected && r.quantity == p.quantity && r.discountCode == p.discountCode
    ensures r.discountInfo.Some? && (r.discountInfo.value.valid <==> resp.Status() == 200)
    ensures resp.Valid? ==> r.discountInfo == Some(DiscountInfo(TypeName(resp.discountType), resp.discountValue, true))
  {
    match resp
    case Valid(t, v) => p.(discountInfo := Some(DiscountInfo(TypeName(t), v, true)))
    case _ => p.(discountInfo := Some(DiscountInfo("", 0.0, false)))
  }

  /** `calculateTotal`: price × quantity, less a valid discount: a percentage
      off, or a fixed amount floored at 0. Any type other than
      "PERCENTAGE" is treated as a fixed amount. */
  function Total(p: Picker): (total: real)
    ensures p.selected.None? ==> total == 0.0
    ensures p.selected.Some? && (p.discountInfo.None? || !p.discountInfo.value.valid) ==>
      total == (p.selected.value.price * p.quantity) as real
    ensures p.selected.Some? && p.discountInfo.Some? && p.discountInfo.value.valid
            && p.discountInfo.value.kind != "PERCENTAGE" ==>
      var cut := (p.selected.value.price * p.quantity) as real - p.discountInfo.value.value;
      // the larger of 0 and the reduced price
      total >= 0.0 && total >= cut && (total == 0.0 || total == cut)
    // a percentage saves exactly that share of the price
    ensures p.selected.Some? && p.discountInfo.Some? && p.discountInfo.value.valid
            && p.discountInfo.value.kind == "PERCENTAGE" ==>
      (p.selected.value.price * p.quantity) as real - total
        == (p.selected.value.price * p.quantity) as real * p.discountInfo.value.value / 100.0
  {
    if p.selected.None? then 0.0
    else
      var base := (p.selected.value.price * p.quantity) as real;
      if p.discountInfo.None? || !p.discountInfo.value.valid then base
      else if p.discountInfo.value.kind == "PERCENTAGE" then base * (1.0 - p.discountInfo.value.value / 100.0)
      else if base - p.discountInfo.value.value > 0.0 then base - p.discountInfo.value.value
      else 0.0
  }

  /** A discount whose value lies in its natural range (0 to 100 percent, or
      a non-negative amount) never raises the price, and the total stays
      between 0 and the undiscounted price. */
  lemma DiscountNeverRaisesTotal(p: Picker)
    requires p.selected.Some? && p.selected.value.price >= 0 && p.quantity >= 0
    requires p.discountInfo.Some? ==>
      0.0 <= p.discountInfo.value.value && (p.discountInfo.value.kind == "PERCENTAGE" ==> p.discountInfo.value.value <= 100.0)
    ensures 0.0 <= Total(p) <= (p.selected.value.price * p.quantity) as real
  {
    var base := (p.selected.value.price * p.quantity) as real;
    assert base >= 0.0 by { NatProduct(p.selected.value.price, p.quantity); }
    if p.discountInfo.Some? && p.discountInfo.value.valid && p.discountInfo.value.kind == "PERCENTAGE" {
      var f := 1.0 - p.discountInfo.value.value / 100.0;
      assert 0.0 <= f <= 1.0;
      ScaleMonotone(base, 0.0, f);
      ScaleMonotone(base, f, 1.0);
      assert Total(p) == base * f;
    }
  }

  /** Scaling by a non-negative factor keeps order. */
  lemma ScaleMonotone(a: real, b: real, c: real)
    requires a >= 0.0 && b <= c
    ensures a * b <= a * c
  {
    assert a * c - a * b == a * (c - b);
  }

  lemma NatProduct(x: int, y: int)
    requires x >= 0 && y >= 0
    ensures x * y >= 0
  {
  }

  /** A percentage above 100 gives a negative total; only the fixed amount is
      floored. */
  lemma PercentageAboveHundredGoesNegative()
    ensures Total(Picker(Some(TierView(1, 10, 5)), 1, "X", Some(DiscountInfo("PERCENTAGE", 150.0, true)))) == -5.0
  {
  }
}

=== FILE: tickets.dfy ===
/** src/lib/tickets.ts: `remainingTickets`, the live availability shown to
    buyers: stock minus CONFIRMED orders minus PENDING holds. */
module Tickets {
  import opened Wrappers
  import opened Db

  /** `remainingTickets(tierId)`. The result is not clamped at zero. */
  function RemainingTickets(st: State, tierId: Id): (r: int)
    ensures Row(st.tiers, tierId).None? ==> r == 0
    ensures Row(st.tiers, tierId).Some? ==>
      r + Sold(st.orders, tierId) + Reserved(st.reservations, tierId, PendingOnly) == st.tiers[tierId - 1].quantity
  {
    match Row(st.tiers, tierId)
    case None => 0
    case Some(t) => t.quantity - Sold(st.orders, tierId) - Reserved(st.reservations, tierId, PendingOnly)
  }

  /** Moving a PENDING reservation to any other status raises its tier's
      remaining count by exactly its quantity and leaves other tiers alone. */
  lemma LeavingPendingFreesQuantity(st: State, i: nat, s: ResStatus, tierId: Id)
    requires i < |st.reservations| && st.reservations[i].status == Pending && s != Pending
    ensures var st' := st.(reservations := st.reservations[i := st.reservations[i].(status := s)]);
      RemainingTickets(st', tierId)
        == RemainingTickets(st, tierId)
           + (if tierId == st.reservations[i].tierId && Row(st.tiers, tierId).Some? then st.reservations[i].quantity else 0)
  {
    ReservedUpdate(st.reservations, i, st.reservations[i].(status := s), tierId, PendingOnly);
  }

  /** Holds of any status other than PENDING, and orders that are not
      CONFIRMED, do not lower the count. */
  lemma OnlyPendingAndConfirmedCount(st: State, r: TicketReservation, o: Order, tierId: Id)
    requires r.status != Pending && o.status != Confirmed
    ensures RemainingTickets(st.(reservations := st.reservations + [r], orders := st.orders + [o]), tierId)
         == RemainingTickets(st, tierId)
  {
    ReservedAppend(st.reservations, r, tierId, PendingOnly);
    SoldAppend(st.orders, o, tierId);
  }

  /** Nothing clamps the result: a tier of 1 with a pending hold of 3 reports -2. */
  lemma RemainingCanBeNegative()
    ensures RemainingTickets(State([Tier(1, 10, 1)], [TicketReservation(1, "u", 3, Pending, 0)], [], [], [], [], []), 1) == -2
  {
    var rs := [TicketReservation(1, "u", 3, Pending, 0)];
    assert rs[..0] == [];
  }
}

=== FILE: waitlist.dfy ===
/** src/app/api/waitlist/join/route.ts and src/app/api/waitlist/check/route.ts:
    joining a tier's waitlist, allowed only when the tier cannot cover the
    request, and asking whether the caller is on it. Nothing here promotes
    waiting entries. */
module Waitlist {
  import opened Wrappers
  import opened Seqs
  import opened Text
  import opened Db

  /** The availability the join route computes: stock minus PENDING holds. */
  function WaitlistAvailability(st: State, tierId: Id): int
    requires Row(st.tiers, tierId).Some?
  {
    st.tiers[tierId - 1].quantity - Reserved(st.reservations, tierId, PendingOnly)
  }

  datatype JoinResponse =
    | Unauthorized
    | TicketsAvailable
    /** `avail!` on a missing tier throws. */
    | ServerError
    | Joined(waitlistId: Id)
  {
    function Status(): int {
      match this
      case Unauthorized => 401
      case TicketsAvailable => 409
      case ServerError => 500
      case Joined(_) => 200
    }
  }

  /** `POST /api/waitlist/join` with body `{ tierId, quantity }`. The new entry
      takes the table's default status, WAITING. */
  function JoinWaitlist(st: State, caller: Option<UserId>, tierId: Id, quantity: int): (r: (JoinResponse, State))
    ensures caller.None? ==> r == (Unauthorized, st)
    ensures !r.0.Joined? ==> r.1 == st
    ensures r.0 == ServerError <==> caller.Some? && Row(st.tiers, tierId).None?
    ensures r.0 == TicketsAvailable <==>
      caller.Some? && Row(st.tiers, tierId).Some? && WaitlistAvailability(st, tierId) >= quantity
    ensures r.0.Joined? ==>
      && caller.Some? && Row(st.tiers, tierId).Some? && WaitlistAvailability(st, tierId) < quantity
      && r.0.waitlistId == |st.waitlist| + 1
      && r.1.waitlist == st.waitlist
           + [WaitlistEntry(caller.value, tierId, st.tiers[tierId - 1].eventId, quantity, Waiting)]
      && r.1 == st.(waitlist := r.1.waitlist)
  {
    if caller.None? then (Unauthorized, st)
    else match Row(st.tiers, tierId)
      case None => (ServerError, st)
      case Some(tier) =>
        if WaitlistAvailability(st, tierId) >= quantity then (TicketsAvailable, st)
        else
          var entry := WaitlistEntry(caller.value, tierId, tier.eventId, quantity, Waiting);
          (Joined(|st.waitlist| + 1), st.(waitlist := st.waitlist + [entry]))
  }

  /** There is no duplicate check: a second identical join adds a second entry. */
  lemma RepeatedJoinAddsAgain(st: State, user: UserId, tierId: Id, quantity: int)
    requires JoinWaitlist(st, Some(user), tierId, quantity).0.Joined?
    ensures var once := JoinWaitlist(st, Some(user), tierId, quantity).1;
      var twice := JoinWaitlist(once, Some(user), tierId, quantity);
      twice.0.Joined? && |twice.1.waitlist| == |st.waitlist| + 2
      && twice.1.waitlist[|st.waitlist|] == twice.1.waitlist[|st.waitlist| + 1]
  {
  }

  /** An entry that shows the caller as joined. */
  predicate ActiveEntry(e: WaitlistEntry, user: UserId, tierId: int) {
    e.userId == user && e.tierId == tierId && (e.status == Waiting || e.status == Notified)
  }

  /** `GET /api/waitlist/check?tierId=…`: `tierParam` is the query parameter,
      None when absent. The result is the `joined` flag; the route only reads. */
  function WaitlistCheck(st: State, caller: Option<UserId>, tierParam: Option<string>): (joined: bool)
    ensures caller.None? ==> !joined
    ensures ParseInt(tierParam.GetOr(""), Decimal) in {NaN, Int(0)} ==> !joined
    ensures caller.Some? && ParseInt(tierParam.GetOr(""), Decimal).Int? && ParseInt(tierParam.GetOr(""), Decimal).value != 0 ==>
      (joined <==> exists i :: 0 <= i < |st.waitlist|
                      && ActiveEntry(st.waitlist[i], caller.value, ParseInt(tierParam.GetOr(""), Decimal).value))
  {
    if caller.None? then false
    else match ParseInt(tierParam.GetOr(""), Decimal)
      case NaN => false
      case Int(tierId) =>
        if tierId == 0 then false
        else FirstIndex(st.waitlist, (e: WaitlistEntry) => ActiveEntry(e, caller.value, tierId)).Some?
  }

  /** The check reads the parameter in base 10: "0x5" is 0, so it reports false. */
  lemma HexParameterReadsAsZero(st: State, user: UserId)
    ensures !WaitlistCheck(st, Some(user), Some("0x5"))
  {
    ParseDecimalLeadingZero("0x5");
  }
}

=== FILE: wrappers.dfy ===
/** Optional values: a nullable column, an absent JSON field or session,
    or a lookup that found nothing. */
module Wrappers {

  datatype Option<+T> = None | Some(value: T) {

    /** The carried value, or the given default when there is none. */
    function GetOr(default: T): T {
      match this
      case Some(v) => v
      case None => default
    }
  }
}
